=== FILE: README.md ===
# log4net asynchronous Elasticsearch appenders — a Dafny model

This project models the sequential logic of the log4net asynchronous
appenders:

- the **asynchronous appender base class**: a small state machine over its
  `Activated` and `AcceptsLoggingEvents` flags. It covers configuration
  validation, activation, accepting or refusing logging events, and an
  idempotent close that always ends deactivated;
- the **Elasticsearch asynchronous appender**: how it reads its properties
  from a connection string through a case-insensitive token map, the
  `Index` check, the `_bulk` endpoint address, splitting the `user:password`
  user info, and the line framing of a bulk request body;
- the **legacy `AppenderSettings` record**: coalesced setting lookups,
  rolling index names, the routing and bulk suffixes, the address string,
  and `AreValid`.

The batching engine behind the appender is abstracted to a handler. The
handler records the events handed to it, in order, and how many processors
are still running. Errors sent to the appender's error handler are kept as
the list of messages in the order they were reported. The race in `OnClose`
between the close timeout and the end of all processors is a boolean
parameter, `timedOut`.

Some things become parameters of the model:

- the connection-string parser (`DbConnectionStringBuilder`), as a function
  from the string to its key/value pairs, or `None` when it throws;
- the parts of the base URI that the HTTP endpoint appender builds;
- URI escaping;
- the current UTC date, already written `yyyy.MM.dd`;
- the per-event JSON serializer;
- `Environment.NewLine`.

`bool.TryParse` and `int.TryParse` are modelled by `Numbers.ParseBool` and
`Numbers.ParseInt32`. Each is proved to invert its printer.

Files:

- `options.dfy`: `Option`.
- `text.dfy`: white space, `IsNullOrWhiteSpace`, ordinal ignore-case, trimming, `Split`/`Join`.
- `numbers.dfy`: boolean and 32-bit integer parsing, decimal rendering.
- `token_map.dfy`: the case-insensitive dictionary and the coalescing `TryGet`.
- `uri_parts.dfy`: address pieces shared by both appenders.
- `async_appender.dfy`, `elastic_appender.dfy`, `appender_settings.dfy`: the three components.
- `endpoint_agreement.dfy`: the two address builders agree on matching parts.

Two facts about the code's lifecycle shape the model:

- `ActivateOptions` after `OnClose` activates the appender again with a new
  handler (src/log4net.AsyncAppender/AsyncAppender.cs:45-55, 110-131). The
  new handler is started on the token the close already cancelled, because
  the token source is created once per appender (line 12) and cancelled in
  `OnClose` (line 181). The model allows re-activation;
  `AsyncAppender.ClosedStaysClosed` covers only runs without an activation,
  and `AsyncAppender.ReactivatedOnCancelledToken` shows the token stays
  cancelled.
- `OnClose` clears `AcceptsLoggingEvents` before the wait (line 178) and
  `Activated` after it (line 200), whichever of the timeout and the
  processors finishes first. The model takes `OnClose` as one step, so the
  state in between, with `Activated` still set and `AcceptsLoggingEvents`
  already cleared, does not occur between calls. `Append` cannot observe
  it, because log4net serialises `DoAppend` and `Close`; only an unlocked
  read of the public getters (lines 35-37) during the wait can.

## Model

| member | source | states |
|---|---|---|
| AsyncAppender.Create | src/log4net.AsyncAppender/AsyncAppender.cs:15-19 | a new appender is neither activated nor accepting events, has no handler (so is not processing) and has reported nothing |
| AsyncAppender.IsProcessing | src/log4net.AsyncAppender/AsyncAppender.cs:39 | true exactly when a handler exists and has processors in flight; false whenever there is no handler |
| AsyncAppender.ValidateSelf | src/log4net.AsyncAppender/AsyncAppender.cs:71-108 | passes iff processors ≥ 1, batch size ≥ 1 and close timeout > 0; a failure reports exactly one error, the one for the first failing check in that order; a pass reports none |
| AsyncAppender.DefaultConfigIsValid | src/log4net.AsyncAppender/AsyncAppender.cs:23-27 | the defaults (3, 512, 5000) pass validation without error |
| AsyncAppender.Activate | src/log4net.AsyncAppender/AsyncAppender.cs:110-134 | sets both flags and installs a fresh handler with nothing forwarded, keeping configuration and error log |
| AsyncAppender.ActivateWith | src/log4net.AsyncAppender/AsyncAppender.cs:45-55 | validation errors are appended to the log; a passing validation sets both flags; a failing one leaves flags and handler as they were; the flag invariant is preserved |
| AsyncAppender.ActivateOptions | src/log4net.AsyncAppender/AsyncAppender.cs:45-55 | afterwards the appender is activated iff its configuration is well formed or it already was |
| AsyncAppender.ActivateFresh | src/log4net.AsyncAppender/AsyncAppender.cs:45-55 | from a fresh appender, both flags end true iff the configuration is valid; on success nothing is reported, on failure exactly one error and still no handler |
| AsyncAppender.Append | src/log4net.AsyncAppender/AsyncAppender.cs:140-151 | a non-accepting appender reports one error and forwards nothing; an accepting one forwards exactly the given events, unchanged and in order, and reports nothing; flags unchanged |
| AsyncAppender.AppendOne | src/log4net.AsyncAppender/AsyncAppender.cs:153-164 | same guard for one event: one error and nothing forwarded, or the event appended to the forwarded sequence |
| AsyncAppender.AppendOneIsAppend | src/log4net.AsyncAppender/AsyncAppender.cs:140-164 | the single-event overload behaves exactly as the array overload on a one-element array |
| AsyncAppender.OnClose | src/log4net.AsyncAppender/AsyncAppender.cs:172-202 | a non-activated appender is left unchanged; an activated one ends with both flags false in either race outcome and its token cancelled; only the timeout outcome reports, once, naming the processor count; otherwise no processor is left running; forwarded events are kept |
| AsyncAppender.CloseTimedOutMessage | src/log4net.AsyncAppender/AsyncAppender.cs:195 | the timeout message is `Processors `, the decimal digits of the processor count (their value is the count), then ` termination timed out during appender OnClose.` |
| AsyncAppender.TimedOutCloseNamesProcessors | src/log4net.AsyncAppender/AsyncAppender.cs:186-197 | activating, letting n processors start, then closing with the timeout winning reports exactly one error, the message naming n, and leaves the appender inactive with its token cancelled |
| AsyncAppender.Progress | src/log4net.AsyncAppender/AsyncAppender.cs:39 | the handler's in-flight processor count becomes the given number, so the appender is processing iff it is positive; flags, configuration, error log, token and forwarded events are untouched; without a handler nothing changes |
| AsyncAppender.CloseIdempotent | src/log4net.AsyncAppender/AsyncAppender.cs:176 | a second close changes nothing, whichever way either race went |
| AsyncAppender.Run | src/log4net.AsyncAppender/AsyncAppender.cs:35-37 | after any sequence of activate/append/progress/close calls the two flags agree and an activated appender has a handler; the error log only grows; a cancelled token stays cancelled |
| AsyncAppender.ActivatedOnlyWellFormed | src/log4net.AsyncAppender/AsyncAppender.cs:45-55 | the bounds never change and activation needs them to validate, so after any sequence of the appender's own calls an activated appender has well-formed bounds, and every close it performs waits on a positive timeout (line 184) |
| AsyncAppender.ClosedStaysClosed | src/log4net.AsyncAppender/AsyncAppender.cs:172-202 | after a close, any sequence of calls without a new activation leaves the appender inactive and not accepting, with a handler iff it had one and the same forwarded events |
| AsyncAppender.ReactivatedOnCancelledToken | src/log4net.AsyncAppender/AsyncAppender.cs:110-131 | closing an activated appender and activating it again gives an activated, accepting appender with a fresh handler whose token is still the cancelled one (the source is created at line 12 and cancelled at line 181) |
| AsyncAppender.NeverActivatedRefusesAll | src/log4net.AsyncAppender/AsyncAppender.cs:140-164 | an appender never activated reports exactly one "cannot process" error per append call and never gets a handler |
| ElasticSearchAppender.Create | src/log4net.AsyncAppender.ElasticSearch/ElasticSearchAsyncAppender.cs:14-20 | a new Elasticsearch appender is inactive, not processing, holds the given connection string and satisfies the flag invariant |
| ElasticSearchAppender.ApplyTokens | src/log4net.AsyncAppender.ElasticSearch/ElasticSearchAsyncAppender.cs:32-48 | the scheme is never blank: a blank `Scheme` becomes `http`, a non-blank one is kept; port, path, query, index and routing are the coalesced values of their own keys; the index rolls iff `Rolling` parses as boolean true |
| ElasticSearchAppender.ApplyTokensCoalesces | src/log4net.AsyncAppender.ElasticSearch/ElasticSearchAsyncAppender.cs:34-43 | `UserName` beats `User`, `Password` beats `Pwd`, `Host` beats `Server`; a missing `Scheme` gives `http`, a missing `Rolling` gives false, a missing `Index` gives empty |
| ElasticSearchAppender.Configure | src/log4net.AsyncAppender.ElasticSearch/ElasticSearchAsyncAppender.cs:26-54 | a blank connection string changes nothing; a rejected one reports one error and changes no property; a parsed one leaves a non-blank scheme; the flags are never touched |
| ElasticSearchAppender.ValidateSelf | src/log4net.AsyncAppender.ElasticSearch/ElasticSearchAsyncAppender.cs:75-94 | passes iff the HTTP endpoint appender's validation passes and the index is non-blank; a failing base is returned as it is; after a passing base, a blank index adds exactly "Missing index." to the base's reports |
| ElasticSearchAppender.ValidateOverBoundChecks | src/log4net.AsyncAppender.ElasticSearch/ElasticSearchAsyncAppender.cs:75-94 | over the asynchronous appender's bound checks as the base, validation passes iff the bounds are well formed and the index is non-blank, and a failure reports exactly one error: the first failing bound, else "Missing index." |
| ElasticSearchAppender.ActivateOptions | src/log4net.AsyncAppender/AsyncAppender.cs:45-55 | with the overridden configure and validate steps, the appender ends activated iff it was, or the base validation passes and the configured index is non-blank; the log gains the configure step's reports, then the validation's |
| ElasticSearchAppender.NoIndexNoActivation | src/log4net.AsyncAppender.ElasticSearch/ElasticSearchAsyncAppender.cs:75-94 | with no connection string and no index a fresh appender never activates, whatever the base validation says; it logs the base's reports, followed by "Missing index." exactly when the base passed |
| ElasticSearchAppender.IndexedConnectionStringActivates | src/log4net.AsyncAppender.ElasticSearch/ElasticSearchAsyncAppender.cs:26-94 | when the base validation passes, a connection string that parses and names a non-blank index activates a fresh appender with a non-blank scheme, logging only the base's own reports |
| ElasticSearchAppender.TryExtractUserInfo | src/log4net.AsyncAppender.ElasticSearch/ElasticSearchAsyncAppender.cs:155-168 | blank user info gives (null, null); otherwise the user name is the text before the first `:`, or all of it when there is none; a password exists iff there is a `:`, and it is the text up to the next `:` or the end |
| ElasticSearchAppender.Credentials | src/log4net.AsyncAppender.ElasticSearch/ElasticSearchAsyncAppender.cs:122-125 | blank user info writes no credentials; non-empty credentials end in `@` and come from user info holding a `:` |
| ElasticSearchAppender.CredentialsRoundTrip | src/log4net.AsyncAppender.ElasticSearch/ElasticSearchAsyncAppender.cs:122-125 | user info `u:p` with both halves non-blank and free of `:` is written back as `u:p@` |
| ElasticSearchAppender.NoPasswordNoCredentials | src/log4net.AsyncAppender.ElasticSearch/ElasticSearchAsyncAppender.cs:122-125 | user info without a `:` has no password, so no credentials are written |
| ElasticSearchAppender.Authority | src/log4net.AsyncAppender.ElasticSearch/ElasticSearchAsyncAppender.cs:119-128 | the endpoint's authority starts with `scheme://` |
| ElasticSearchAppender.AuthorityCredentials | src/log4net.AsyncAppender.ElasticSearch/ElasticSearchAsyncAppender.cs:119-128 | `user:password@` appears between `scheme://` and `host:port` exactly when both extracted halves are non-blank |
| ElasticSearchAppender.PathSegment | src/log4net.AsyncAppender.ElasticSearch/ElasticSearchAsyncAppender.cs:130-134 | the path part always ends in `/`; `/` is kept as it is; any other path is kept and gains one trailing `/` |
| ElasticSearchAppender.QuerySuffix | src/log4net.AsyncAppender.ElasticSearch/ElasticSearchAsyncAppender.cs:148-149 | nothing for a blank base query, the escaped query otherwise |
| ElasticSearchAppender.EndpointTail | src/log4net.AsyncAppender.ElasticSearch/ElasticSearchAsyncAppender.cs:142-146 | a blank routing puts nothing between `/logEvent` and `/_bulk`; a non-blank routing R puts the escaped `?routing=R` there; the query suffix follows |
| ElasticSearchAppender.CreateEndpoint | src/log4net.AsyncAppender.ElasticSearch/ElasticSearchAsyncAppender.cs:115-153 | for an escaping that maps the empty text to itself, the endpoint reads as authority and path, then the escaped index (with `-date` iff rolling), then `/logEvent`, the escaped `?routing=R` iff routing is non-blank (nothing otherwise), `/_bulk`, and the escaped base query iff non-blank; with blank routing and query it ends in `/logEvent/_bulk` |
| ElasticSearchAppender.BulkLines | src/log4net.AsyncAppender.ElasticSearch/ElasticSearchAsyncAppender.cs:177-191 | a batch of n events gives n + (n ≠ 1 ? 1 : 0) lines; the header comes first iff n ≠ 1; then each event's JSON, in input order |
| ElasticSearchAppender.SerializeAllToJson | src/log4net.AsyncAppender.ElasticSearch/ElasticSearchAsyncAppender.cs:177-191 | the body the loop builds is those lines, each followed by the newline |
| ElasticSearchAppender.BodyLines | src/log4net.AsyncAppender.ElasticSearch/ElasticSearchAsyncAppender.cs:177-191 | splitting the body at a one-character newline that no line contains gives back exactly the header (iff n ≠ 1), each event's JSON in order, then one empty trailing part |
| EndpointAgreement.SameAddress | src/log4net.AsyncAppender.ElasticSearch/ElasticSearchAsyncAppender.cs:115-153 | when the base URI and the settings record carry the same scheme, host, port and `user:password`, the path is `/`, the query blank, and index and routing are derived alike, the Elasticsearch endpoint equals the settings' address string (src/log4net.Elasticsearch.Async/AppenderSettings.cs:68-85), with identity escaping |
| TokenMap.Find | src/log4net.Elasticsearch.Async/AppenderSettings.cs:42-44 | a lookup succeeds iff some key is equal ignoring case; the value returned is stored under such a key, and in a well-formed dictionary it is the value of every such key |
| TokenMap.FindIgnoresCase | src/log4net.Elasticsearch.Async/AppenderSettings.cs:42-44 | keys equal ignoring case look up the same value |
| TokenMap.Set | src/log4net.AsyncAppender.ElasticSearch/ElasticSearchAsyncAppender.cs:108 | after `d[key] = value`, looking up `key` gives `value` and every key not equal to it ignoring case looks up as before |
| TokenMap.SetKeepsDistinct | src/log4net.AsyncAppender.ElasticSearch/ElasticSearchAsyncAppender.cs:108 | the indexer assignment keeps keys pairwise distinct ignoring case |
| TokenMap.Copy | src/log4net.Elasticsearch.Async/AppenderSettings.cs:44 | copying into a case-insensitive dictionary fails exactly when two keys are equal ignoring case, and otherwise keeps every entry |
| TokenMap.Add | src/log4net.Elasticsearch.Async/AppenderSettings.cs:44 | adding a key fails exactly when an equal key ignoring case is present; otherwise the entry is appended after the existing ones, which are kept, and distinct keys stay distinct |
| TokenMap.FromEntries | src/log4net.AsyncAppender.ElasticSearch/ElasticSearchAsyncAppender.cs:106-110 | the built dictionary holds distinct keys, and each key looks up the value of the last pair with an equal key |
| TokenMap.TryGetFirst | src/log4net.AsyncAppender.ElasticSearch/ElasticSearchAsyncAppender.cs:65-72 | `TryGet` gives the value under the first listed key that is present, and the empty string when none is |
| TokenMap.TryGet | src/log4net.AsyncAppender.ElasticSearch/ElasticSearchAsyncAppender.cs:65-72 | the result is empty or the value of one of the listed keys; `AppenderSettings.TryGet` (src/log4net.Elasticsearch.Async/AppenderSettings.cs:89-96) is the same coalescing lookup |
| TokenMap.TryGetTwo | src/log4net.Elasticsearch.Async/AppenderSettings.cs:89-96 | a two-key lookup takes the first key if present, else the second, else empty |
| Numbers.ParseBool | src/log4net.AsyncAppender.ElasticSearch/ElasticSearchAsyncAppender.cs:41 | parses to b exactly when the text, trimmed of white space and NUL, spells `True`/`False` in any case; blank text does not parse |
| Numbers.ParseBoolToString | src/log4net.Elasticsearch.Async/AppenderSettings.cs:53 | `True`/`False` in any letter case and with any white-space padding parse back to their boolean |
| Numbers.ParseInt32 | src/log4net.Elasticsearch.Async/AppenderSettings.cs:65-66 | a successful parse is a 32-bit value; blank text never parses |
| Numbers.ParseIntToString | src/log4net.Elasticsearch.Async/AppenderSettings.cs:65-66 | every 32-bit integer's decimal rendering parses back to it |
| Numbers.NatToString | src/log4net.AsyncAppender/AsyncAppender.cs:195 | the rendering is non-empty decimal digits without leading zeros whose value is the number |
| Numbers.IntToString | src/log4net.AsyncAppender.ElasticSearch/ElasticSearchAsyncAppender.cs:128 | non-empty, starting with `-` exactly when the number is negative |
| Text.Split | src/log4net.AsyncAppender.ElasticSearch/ElasticSearchAsyncAppender.cs:162 | at least one part, no part holds the separator, and joining the parts with the separator gives the input back |
| Text.SplitJoin | src/log4net.AsyncAppender.ElasticSearch/ElasticSearchAsyncAppender.cs:162 | splitting a join of separator-free parts gives the parts back |
| Text.BlankIffTrimsEmpty | src/log4net.AsyncAppender.ElasticSearch/ElasticSearchAsyncAppender.cs:28 | `IsNullOrWhiteSpace` holds exactly when trimming white space leaves nothing |
| UriParts.UserInfoPrefix | src/log4net.Elasticsearch.Async/AppenderSettings.cs:73-74 | non-empty exactly when user and password are both non-blank, and then it is `user:password@` |
| UriParts.IndexName | src/log4net.Elasticsearch.Async/AppenderSettings.cs:55-58 | a rolling index is the name, `-`, then the date, and is never blank; otherwise the name itself |
| UriParts.RoutingQuery | src/log4net.Elasticsearch.Async/AppenderSettings.cs:60-63 | empty exactly when the routing name is blank, else `?routing=` followed by the name |
| AppenderSettings.FromMap | src/log4net.Elasticsearch.Async/AppenderSettings.cs:48-66 | rolling iff `Rolling` parses as true; the index is the `Index` value, with `-date` iff rolling; the routing is `?routing=` and the `Routing` value, or empty iff that is blank; `Bulk` is `/_bulk` iff `BufferSize` parses as an integer above 1, else empty |
| AppenderSettings.FromSettings | src/log4net.Elasticsearch.Async/AppenderSettings.cs:40-44 | a null map reads as empty; construction fails exactly when the map has two keys equal ignoring case |
| AppenderSettings.FromMapLookups | src/log4net.Elasticsearch.Async/AppenderSettings.cs:48-53 | the password comes from `Pwd` before `Password`; scheme, user, server and port from their own keys or empty; missing `Rolling`/`BufferSize` give no rolling and no bulk |
| AppenderSettings.ServerKeyIgnoresCase | src/log4net.Elasticsearch.Async/AppenderSettings.cs:42-44 | an entry whose key is `Server` in any letter case sets the server |
| AppenderSettings.BulkFromBufferSize | src/log4net.Elasticsearch.Async/AppenderSettings.cs:65-66 | a buffer size written as a 32-bit integer gives `/_bulk` exactly when it is above 1 |
| AppenderSettings.UriString | src/log4net.Elasticsearch.Async/AppenderSettings.cs:68-85 | `scheme://`, credentials iff both non-blank, the server, then `:port` exactly when the port is non-empty (white space included), then `/index/logEvent`, routing, bulk |
| AppenderSettings.AreValid | src/log4net.Elasticsearch.Async/AppenderSettings.cs:99-105 | true only if scheme, server and index are all non-blank, and false if any is blank |
| AppenderSettings.AreValidFromMap | src/log4net.Elasticsearch.Async/AppenderSettings.cs:99-105 | settings read from a map are valid iff the map gives a non-blank scheme and server and either a rolling index or a non-blank index name |
| TokenMap.ParseConnectionString | src/log4net.Elasticsearch.Async/AppenderSettings.cs:107-122 | an empty connection string gives an empty map; the result never holds two keys equal ignoring case; it fails exactly when the parser rejects a non-empty string. The Elasticsearch appender's `Parse` (src/log4net.AsyncAppender.ElasticSearch/ElasticSearchAsyncAppender.cs:96-111) is alike, up to the comparer of the empty map it returns (line 99 against src/log4net.Elasticsearch.Async/AppenderSettings.cs:110), which no caller observes |
| AppenderSettings.FromConnectionString | src/log4net.Elasticsearch.Async/AppenderSettings.cs:35-38 | construction from a connection string fails exactly when parsing fails |
| AppenderSettings.EmptyConnectionString | src/log4net.Elasticsearch.Async/AppenderSettings.cs:109-110 | an empty connection string gives settings with every field empty, which are not valid |

## Left out

- The batching and dispatch engine (`EventsHandler`), its processor tasks, `Handle`, `Dispose` and `ProcessingStarted`/`ProcessingTerminated`: this is concurrent code and is not part of this model. It is reduced to a handler that records forwarded events and an in-flight processor count.
- The `Task.Delay` against `Task.WhenAll` race, the `CancellationTokenSource` beyond whether it is cancelled, and the finalizer that calls `OnClose`: these are concurrency and garbage collection. The race is the boolean `timedOut`; the token is the `cancelled` field.
- `TryTrace` and the `Trace` switch: they only write to `System.Diagnostics.Trace`.
- A handler started on an already cancelled token: what the events engine does with it is not part of this model. The re-activated handler records events like a fresh one; `AsyncAppender.ReactivatedOnCancelledToken` records that the token stays cancelled. A host sees that re-accepting appender only when `OnClose` runs without `Close`, as from the finalizer (line 170): `AppenderSkeleton.Close` runs `OnClose` at most once and sets a closed flag that `ActivateOptions` never resets, and `DoAppend` then refuses events with its own error before `Append` runs. The model's calls are on the appender's own overrides, not on `DoAppend` and `Close`.
- AsyncAppender.OnClose: the configuration properties have public setters, but the model fixes them when the appender is created. So it does not model the `ArgumentOutOfRangeException` that `Task.Delay` throws for a close timeout below -1 (line 184), which leaves `Activated` set after clearing `AcceptsLoggingEvents`, cancelling the token and disposing the handler. It also does not model the endless wait for a timeout of -1, where the timeout can never win. Through the appender's own calls such a close cannot happen (`AsyncAppender.ActivatedOnlyWellFormed`). The Elasticsearch activation takes the HTTP base check as a parameter, though, and can activate with any bounds.
- AsyncAppender.Progress: stands for the engine starting and finishing processors inside `EventsHandler`. `ProcessingStarted`/`ProcessingTerminated`, which throw when there is no handler, are not modelled.
- A null `ErrorHandler`: every reported error is recorded.
- The base `Configure` step (`IAsyncAppenderConfigurator.Configure` and its "Error during configuration" catch), and `AppenderSkeleton.ActivateOptions`/`OnClose`: these are foreign code.
- The catch branches of both `ValidateSelf` methods ("Error during validation"): the checks themselves only read properties, so they are reachable only when the error handler or a trace listener throws. They are not modelled.
- `HttpEndpointAsyncAppender` (its `Configure`, `ValidateSelf` and `CreateEndpoint`) is not part of this model. Its base URI arrives as parts, and the outcome of its `ValidateSelf` is the `baseCheck` parameter of the Elasticsearch validation and activation.
- ElasticSearchAppender.ValidateOverBoundChecks: states the Elasticsearch validation only for a base that adds nothing to the asynchronous appender's bound checks. What the HTTP endpoint appender checks beyond them is not part of this model.
- `DbConnectionStringBuilder`, `Uri.EscapeUriString`, `DateTime.UtcNow` and the JSON serializer (`Utf8Json`, `Projection`, `ProjectToElasticModel`, `GetHttpContentAsync`): they are parameters.
- ElasticSearchAppender.CreateEndpoint: returns the text passed to `new Uri(...)`. It does not model the `Uri` object, its normalisation, or the exception when that text is not a valid URI. Nor does it model the `ArgumentNullException` that `Uri.EscapeUriString` throws for a never-set, non-rolling `Index` (line 140): the model escapes the empty text there and returns an address.
- AppenderSettings.UriString: returns the text of the lazily built `Uri` under the same restriction. Laziness is not modelled.
- TokenMap.Find: ignoring case covers only ASCII letters. The non-ASCII case mappings of `OrdinalIgnoreCase` are not modelled.
- Numbers.ParseInt32: assumes the invariant culture's `-` and `+` signs. It does not model the trailing NUL characters that .NET number parsing tolerates.
- Null strings are modelled as empty strings. The exceptions are the null pair from `TryExtractUserInfo` and a null settings map. `IsNullOrWhiteSpace` and `IsNullOrEmpty` treat null and empty alike. The one place where a null string behaves differently is the escaping of a null `Index`, listed under `ElasticSearchAppender.CreateEndpoint` above.
- Both appenders define `Parse` alike, so one function models both. They differ only in the comparer of the empty dictionary returned for an empty string; no caller looks a key up in it. Its branch for an empty string is modelled, though the Elasticsearch appender's `Configure` never reaches it: it calls `Parse` only for a non-blank string.

=== FILE: appender_settings.dfy ===
/** The legacy appender's settings: an immutable record read from a
    case-insensitive settings map or a connection string, the address it
    posts to, and the check that it is complete enough to use.

    The current UTC date (written `yyyy.MM.dd`) and the connection-string
    parser are parameters; the address is kept as the string the `Uri` is
    built from. */
module AppenderSettings {
  import opened Options
  import Text
  import Numbers
  import TokenMap
  import UriParts

  datatype Settings = Settings(
    scheme: string,
    user: string,
    password: string,
    server: string,
    port: string,
    isRollingIndex: bool,
    index: string,
    routing: string,
    bulk: string)

  const BulkSuffix := "/_bulk"

  /** Does the `BufferSize` text ask for bulk posting, i.e. parse as an integer above 1? */
  predicate WantsBulk(bufferSize: string) {
    var n := Numbers.ParseInt32(bufferSize);
    n.Some? && n.value > 1
  }

  /** The derivations the constructor makes from a case-insensitive map. */
  function FromMap(d: seq<TokenMap.Entry>, date: string): (s: Settings)
    ensures s.isRollingIndex <==> Numbers.ParseBool(TokenMap.TryGet(d, ["Rolling"])) == Some(true)
    ensures s.index == UriParts.IndexName(TokenMap.TryGet(d, ["Index"]), s.isRollingIndex, date)
    ensures s.isRollingIndex ==> !Text.IsBlank(s.index)
    ensures !s.isRollingIndex ==> s.index == TokenMap.TryGet(d, ["Index"])
    ensures s.routing == UriParts.RoutingQuery(TokenMap.TryGet(d, ["Routing"]))
    ensures s.routing == "" <==> Text.IsBlank(TokenMap.TryGet(d, ["Routing"]))
    ensures s.bulk == BulkSuffix <==> WantsBulk(TokenMap.TryGet(d, ["BufferSize"]))
    ensures s.bulk == BulkSuffix || s.bulk == ""
  {
    var rolling := Numbers.ParseBool(TokenMap.TryGet(d, ["Rolling"]));
    var isRolling := if rolling.Some? then rolling.value else false;
    Settings(
      TokenMap.TryGet(d, ["Scheme"]),
      TokenMap.TryGet(d, ["User"]),
      TokenMap.TryGet(d, ["Pwd", "Password"]),
      TokenMap.TryGet(d, ["Server"]),
      TokenMap.TryGet(d, ["Port"]),
      isRolling,
      UriParts.IndexName(TokenMap.TryGet(d, ["Index"]), isRolling, date),
      UriParts.RoutingQuery(TokenMap.TryGet(d, ["Routing"])),
      if WantsBulk(TokenMap.TryGet(d, ["BufferSize"])) then BulkSuffix else "")
  }

  /** The constructor from a settings map: a null map reads as empty; any other
      map is copied into a case-insensitive dictionary, which throws (`None`)
      when two of its keys are equal ignoring case. */
  function FromSettings(settings: Option<seq<TokenMap.Entry>>, date: string): (r: Option<Settings>)
    ensures r.Some? <==> settings.None? || TokenMap.Distinct(settings.value)
    ensures settings.None? ==> r == Some(FromMap([], date))
    ensures r.Some? && settings.Some? ==> r == Some(FromMap(settings.value, date))
  {
    match settings
    case None => Some(FromMap([], date))
    case Some(entries) =>
      match TokenMap.Copy(entries)
      case None => None
      case Some(d) => Some(FromMap(d, date))
  }

  /** Where each setting is read from: the password from `Pwd` before
      `Password`, every other one from its own key, empty when missing. */
  lemma FromMapLookups(d: seq<TokenMap.Entry>, date: string)
    ensures var s := FromMap(d, date);
      && TokenMap.Coalesced(d, "Pwd", "Password", s.password)
      && (TokenMap.HasKey(d, "User") ==> TokenMap.Find(d, "User") == Some(s.user))
      && (!TokenMap.HasKey(d, "User") ==> s.user == "")
      && (TokenMap.HasKey(d, "Port") ==> TokenMap.Find(d, "Port") == Some(s.port))
      && (!TokenMap.HasKey(d, "Port") ==> s.port == "")
      && (TokenMap.HasKey(d, "Scheme") ==> TokenMap.Find(d, "Scheme") == Some(s.scheme))
      && (!TokenMap.HasKey(d, "Scheme") ==> s.scheme == "")
      && (TokenMap.HasKey(d, "Server") ==> TokenMap.Find(d, "Server") == Some(s.server))
      && (!TokenMap.HasKey(d, "Server") ==> s.server == "")
      && (!TokenMap.HasKey(d, "Rolling") ==> !s.isRollingIndex)
      && (!TokenMap.HasKey(d, "Index") && !s.isRollingIndex ==> s.index == "")
      && (!TokenMap.HasKey(d, "BufferSize") ==> s.bulk == "")
  {
    FromMapAddress(d, date);
    FromMapDefaults(d, date);
  }

  /** The connection fields of settings read from `d`. */
  lemma FromMapAddress(d: seq<TokenMap.Entry>, date: string)
    ensures var s := FromMap(d, date);
      && TokenMap.Coalesced(d, "Pwd", "Password", s.password)
      && (TokenMap.HasKey(d, "User") ==> TokenMap.Find(d, "User") == Some(s.user))
      && (!TokenMap.HasKey(d, "User") ==> s.user == "")
      && (TokenMap.HasKey(d, "Port") ==> TokenMap.Find(d, "Port") == Some(s.port))
      && (!TokenMap.HasKey(d, "Port") ==> s.port == "")
      && (TokenMap.HasKey(d, "Scheme") ==> TokenMap.Find(d, "Scheme") == Some(s.scheme))
      && (!TokenMap.HasKey(d, "Scheme") ==> s.scheme == "")
      && (TokenMap.HasKey(d, "Server") ==> TokenMap.Find(d, "Server") == Some(s.server))
      && (!TokenMap.HasKey(d, "Server") ==> s.server == "")
  {
    TokenMap.TryGetTwo(d, "Pwd", "Password");
    TokenMap.TryGetOne(d, "User");
    TokenMap.TryGetOne(d, "Port");
    TokenMap.TryGetOne(d, "Scheme");
    TokenMap.TryGetOne(d, "Server");
  }

  /** The derived fields of settings read from `d` when their keys are missing. */
  lemma FromMapDefaults(d: seq<TokenMap.Entry>, date: string)
    ensures var s := FromMap(d, date);
      && (!TokenMap.HasKey(d, "Rolling") ==> !s.isRollingIndex)
      && (!TokenMap.HasKey(d, "Index") && !s.isRollingIndex ==> s.index == "")
      && (!TokenMap.HasKey(d, "BufferSize") ==> s.bulk == "")
  {
    TokenMap.TryGetOne(d, "Rolling");
    TokenMap.TryGetOne(d, "Index");
    TokenMap.TryGetOne(d, "BufferSize");
    if !TokenMap.HasKey(d, "BufferSize") {
      assert Numbers.ParseInt32("").None?;
    }
  }

  /** Keys are matched ignoring case: an entry spelled `SERVER`, `server` or
      any other way sets the server. */
  lemma ServerKeyIgnoresCase(d: seq<TokenMap.Entry>, date: string, i: nat)
    requires TokenMap.Distinct(d)
    requires i < |d| && Text.EqualsIgnoreCase(d[i].key, "Server")
    ensures FromMap(d, date).server == d[i].value
  {
    TokenMap.TryGetOne(d, "Server");
  }

  /** A buffer size written as a 32-bit integer asks for bulk posting exactly
      when it is above 1. */
  lemma BulkFromBufferSize(d: seq<TokenMap.Entry>, date: string, n: int)
    requires Numbers.IsInt32(n)
    requires TokenMap.Find(d, "BufferSize") == Some(Numbers.IntToString(n))
    ensures FromMap(d, date).bulk == (if n > 1 then BulkSuffix else "")
  {
    TokenMap.TryGetOne(d, "BufferSize");
    Numbers.ParseIntToString(n);
  }

  /** The address the `Uri` is built from: `scheme://`, `user:password@` when
      both are non-blank, the server, `:port` when the port is not empty
      (a port made of spaces still counts), then `/index/logEvent`, the
      routing query and the bulk suffix. */
  function UriString(s: Settings): (r: string)
    ensures var head := s.scheme + "://" + UriParts.UserInfoPrefix(s.user, s.password) + s.server;
      var tail := "/" + s.index + "/logEvent" + s.routing + s.bulk;
      && |head| + |tail| <= |r|
      && Text.IsPrefix(head, r)
      && Text.IsSuffix(tail, r)
      && (s.port == "" <==> |r| == |head| + |tail|)
      && (s.port != "" ==> r[|head|..|r| - |tail|] == ":" + s.port)
  {
    var head := s.scheme + "://" + UriParts.UserInfoPrefix(s.user, s.password) + s.server;
    var port := if s.port != "" then ":" + s.port else "";
    var tail := "/" + s.index + "/logEvent" + s.routing + s.bulk;
    var r := head + port + tail;
    assert r[..|head|] == head;
    assert r[|r| - |tail|..] == tail;
    assert r[|head|..|r| - |tail|] == port;
    r
  }

  /** `AreValid`: scheme, server and index are all non-blank. */
  function AreValid(s: Settings): (r: bool)
    ensures r ==> !Text.IsBlank(s.scheme) && !Text.IsBlank(s.server) && !Text.IsBlank(s.index)
    ensures Text.IsBlank(s.scheme) || Text.IsBlank(s.server) || Text.IsBlank(s.index) ==> !r
  {
    !Text.IsBlank(s.scheme) && !Text.IsBlank(s.server) && !Text.IsBlank(s.index)
  }

  /** Settings read from a map are valid exactly when the map gives a non-blank
      scheme and server, and either a rolling index or a non-blank index name. */
  lemma AreValidFromMap(d: seq<TokenMap.Entry>, date: string)
    ensures var s := FromMap(d, date);
      AreValid(s) <==>
        && !Text.IsBlank(TokenMap.TryGet(d, ["Scheme"]))
        && !Text.IsBlank(TokenMap.TryGet(d, ["Server"]))
        && (s.isRollingIndex || !Text.IsBlank(TokenMap.TryGet(d, ["Index"])))
  {
  }

  /** The constructor from a connection string: it only fails when the parser
      rejects the string, since a parsed map never holds clashing keys. */
  function FromConnectionString(connectionString: string, parser: TokenMap.ConnectionStringParser, date: string): (r: Option<Settings>)
    ensures r.None? <==> TokenMap.ParseConnectionString(connectionString, parser).None?
  {
    match TokenMap.ParseConnectionString(connectionString, parser)
    case None => None
    case Some(d) => FromSettings(Some(d), date)
  }

  /** An empty connection string gives settings with every field empty, which
      are not valid. */
  lemma EmptyConnectionString(parser: TokenMap.ConnectionStringParser, date: string)
    ensures FromConnectionString("", parser, date) == Some(Settings("", "", "", "", "", false, "", "", ""))
    ensures !AreValid(FromConnectionString("", parser, date).value)
  {
    FromMapLookups([], date);
    var s := FromMap([], date);
    assert !TokenMap.HasKey([], "Routing");
    TokenMap.TryGetOne([], "Routing");
    TokenMap.TryGetOne([], "User");
    TokenMap.TryGetOne([], "Port");
    assert s.routing == "";
  }
}

=== FILE: async_appender.dfy ===
/** The lifecycle of the asynchronous appender base class: configuration
    checks, activation, accepting or refusing events, and closing.

    The batching engine behind the appender is abstracted to a `Handler` that
    records the events handed to it and the number of processors still in
    flight; the engine starting and ending processors in the background is
    the call `ProgressCall`. Errors go to the appender's error handler; here
    they are the list of messages it received, in order. The race between the close timeout
    and the termination of all processors is the parameter `timedOut`. */
module AsyncAppender {
  import opened Options
  import Numbers

  /** The configuration properties and their defaults. */
  datatype Config = Config(maxConcurrentProcessorsCount: int, maxBatchSize: int, closeTimeoutMillis: int)

  const DefaultConfig := Config(3, 512, 5000)

  /** Every bound is positive. */
  predicate WellFormed(c: Config) {
    && c.maxConcurrentProcessorsCount >= 1
    && c.maxBatchSize >= 1
    && c.closeTimeoutMillis > 0
  }

  const ProcessorsNotPositive := "MaxConcurrentProcessorsCount must be positive."
  const BatchSizeNotPositive := "MaxBatchSize must be positive."
  const TimeoutNotPositive := "CloseTimeoutMillis must be positive."
  const CannotProcess := "This appender cannot process logging events."

  const TimedOutPrefix := "Processors "
  const TimedOutSuffix := " termination timed out during appender OnClose."

  /** The error reported when the close timeout fires first: the number of
      processors, in decimal, inside the fixed text. */
  function CloseTimedOutMessage(processors: nat): (m: string)
    ensures |m| == |TimedOutPrefix| + |Numbers.NatToString(processors)| + |TimedOutSuffix|
    ensures m[..|TimedOutPrefix|] == TimedOutPrefix
    ensures m[|m| - |TimedOutSuffix|..] == TimedOutSuffix
    ensures Numbers.AllDigits(m[|TimedOutPrefix|..|m| - |TimedOutSuffix|])
    ensures Numbers.DigitsValue(m[|TimedOutPrefix|..|m| - |TimedOutSuffix|]) == processors
  {
    var digits := Numbers.NatToString(processors);
    var m := TimedOutPrefix + digits + TimedOutSuffix;
    assert m[..|TimedOutPrefix|] == TimedOutPrefix;
    assert m[|m| - |TimedOutSuffix|..] == TimedOutSuffix;
    assert m[|TimedOutPrefix|..|m| - |TimedOutSuffix|] == digits;
    m
  }

  /** The outcome of a validation step: whether it passed, and the errors it
      reported on the way. */
  datatype Validation = Validation(ok: bool, errors: seq<string>)

  /** `ValidateSelf`: the checks run in the order processors, batch size,
      timeout, and the first one that fails is the only one reported. */
  function ValidateSelf(c: Config): (v: Validation)
    ensures v.ok <==> WellFormed(c)
    ensures v.ok <==> v.errors == []
    ensures |v.errors| <= 1
    ensures c.maxConcurrentProcessorsCount < 1 ==> v.errors == [ProcessorsNotPositive]
    ensures c.maxConcurrentProcessorsCount >= 1 && c.maxBatchSize < 1 ==> v.errors == [BatchSizeNotPositive]
    ensures c.maxConcurrentProcessorsCount >= 1 && c.maxBatchSize >= 1 && c.closeTimeoutMillis <= 0 ==>
              v.errors == [TimeoutNotPositive]
  {
    if c.maxConcurrentProcessorsCount < 1 then Validation(false, [ProcessorsNotPositive])
    else if c.maxBatchSize < 1 then Validation(false, [BatchSizeNotPositive])
    else if c.closeTimeoutMillis <= 0 then Validation(false, [TimeoutNotPositive])
    else Validation(true, [])
  }

  /** The default configuration passes validation without any error. */
  lemma DefaultConfigIsValid()
    ensures ValidateSelf(DefaultConfig) == Validation(true, [])
  {
  }

  /** The events handler as the appender sees it: the events handed to it, in
      order, and how many processors are still running. */
  datatype Handler<E> = Handler(forwarded: seq<E>, inFlight: nat)

  /** The appender's state. `cancelled` is its one cancellation token source,
      created with the appender, cancelled by the first close that finds it
      activated, and never replaced: every handler it starts runs on that
      token. */
  datatype Appender<E> = Appender(
    config: Config,
    activated: bool,
    acceptsLoggingEvents: bool,
    handler: Option<Handler<E>>,
    cancelled: bool,
    errors: seq<string>)

  /** What holds between the public operations: both flags agree, and an
      activated appender has a handler. */
  predicate Invariant<E>(a: Appender<E>) {
    && a.activated == a.acceptsLoggingEvents
    && (a.activated ==> a.handler.Some?)
  }

  /** `IsProcessing`: the handler exists and has processors in flight. */
  function IsProcessing<E>(a: Appender<E>): (r: bool)
    ensures r <==> a.handler.Some? && a.handler.value.inFlight > 0
    ensures a.handler.None? ==> !r
  {
    match a.handler
    case None => false
    case Some(h) => h.inFlight > 0
  }

  /** The constructor: neither flag is set, there is no handler yet, and the
      token is not cancelled. */
  function Create<E>(config: Config): (a: Appender<E>)
    ensures !a.activated && !a.acceptsLoggingEvents
    ensures a.handler.None? && !IsProcessing(a)
    ensures a.errors == [] && !a.cancelled
    ensures Invariant(a)
  {
    Appender(config, false, false, None, false, [])
  }

  /** `Activate`: starts a new handler, on the appender's token as it is, and
      sets both flags. */
  function Activate<E>(a: Appender<E>): (r: Appender<E>)
    ensures r.activated && r.acceptsLoggingEvents
    ensures r.handler == Some(Handler([], 0))
    ensures r.config == a.config && r.errors == a.errors && r.cancelled == a.cancelled
  {
    a.(activated := true, acceptsLoggingEvents := true, handler := Some(Handler([], 0)))
  }

  /** The tail of `ActivateOptions` once the validation outcome `v` is known:
      its errors are reported, and the appender is activated only if it passed.
      A failed validation leaves the flags and the handler as they were. */
  function ActivateWith<E>(a: Appender<E>, v: Validation): (r: Appender<E>)
    ensures r.errors == a.errors + v.errors
    ensures r.config == a.config
    ensures v.ok ==> r.activated && r.acceptsLoggingEvents
    ensures !v.ok ==> r.activated == a.activated && r.acceptsLoggingEvents == a.acceptsLoggingEvents
    ensures !v.ok ==> r.handler == a.handler
    ensures r.cancelled == a.cancelled
    ensures Invariant(a) ==> Invariant(r)
  {
    var reported := a.(errors := a.errors + v.errors);
    if v.ok then Activate(reported) else reported
  }

  /** `ActivateOptions` of the base appender. */
  function ActivateOptions<E>(a: Appender<E>): (r: Appender<E>)
    ensures r.activated <==> WellFormed(a.config) || a.activated
    ensures Invariant(a) ==> Invariant(r)
  {
    ActivateWith(a, ValidateSelf(a.config))
  }

  /** A freshly created appender becomes active exactly when its configuration
      is valid, and otherwise has both flags still clear and one error. */
  lemma ActivateFresh<E>(c: Config)
    ensures var r := ActivateOptions(Create<E>(c));
      && (r.activated <==> WellFormed(c))
      && (r.acceptsLoggingEvents <==> WellFormed(c))
      && (WellFormed(c) ==> r.errors == [])
      && (!WellFormed(c) ==> |r.errors| == 1 && r.handler.None?)
  {
  }

  /** Can the appender take events right now? */
  predicate Accepting<E>(a: Appender<E>) {
    a.activated && a.acceptsLoggingEvents
  }

  /** `Append(LoggingEvent[])`: an accepting appender hands the events to its
      handler, unchanged and in order, and reports nothing; any other appender
      reports one error and hands nothing on. */
  function Append<E>(a: Appender<E>, events: seq<E>): (r: Appender<E>)
    requires Invariant(a)
    ensures Invariant(r)
    ensures r.activated == a.activated && r.acceptsLoggingEvents == a.acceptsLoggingEvents
    ensures !Accepting(a) ==> r.errors == a.errors + [CannotProcess] && r.handler == a.handler
    ensures Accepting(a) ==> r.errors == a.errors
    ensures Accepting(a) ==> r.handler.Some? && r.handler.value.forwarded == a.handler.value.forwarded + events
    ensures Accepting(a) ==> r.handler.value.inFlight == a.handler.value.inFlight
  {
    if !Accepting(a) then
      a.(errors := a.errors + [CannotProcess])
    else
      var h := a.handler.value;
      a.(handler := Some(h.(forwarded := h.forwarded + events)))
  }

  /** `Append(LoggingEvent)`: the single-event overload, with the same guard. */
  function AppendOne<E>(a: Appender<E>, event: E): (r: Appender<E>)
    requires Invariant(a)
    ensures Invariant(r)
    ensures r.activated == a.activated && r.acceptsLoggingEvents == a.acceptsLoggingEvents
    ensures !Accepting(a) ==> r.errors == a.errors + [CannotProcess] && r.handler == a.handler
    ensures Accepting(a) ==> r.errors == a.errors
    ensures Accepting(a) ==> r.handler.Some? && r.handler.value.forwarded == a.handler.value.forwarded + [event]
  {
    if !Accepting(a) then
      a.(errors := a.errors + [CannotProcess])
    else
      var h := a.handler.value;
      a.(handler := Some(h.(forwarded := h.forwarded + [event])))
  }

  /** The single-event overload behaves as the array overload given one event. */
  lemma AppendOneIsAppend<E>(a: Appender<E>, event: E)
    requires Invariant(a)
    ensures AppendOne(a, event) == Append(a, [event])
  {
  }

  /** `OnClose`. An appender that is not activated is left exactly as it is.
      Otherwise it stops accepting events and waits for its processors; if
      the timeout fires first (`timedOut`) one error naming the number of
      processors is reported, else all processors have terminated. Either
      way the token is cancelled and both flags end up clear. */
  function OnClose<E>(a: Appender<E>, timedOut: bool): (r: Appender<E>)
    requires Invariant(a)
    ensures Invariant(r)
    ensures !a.activated ==> r == a
    ensures a.activated ==> !r.activated && !r.acceptsLoggingEvents && r.cancelled
    ensures a.activated && timedOut ==>
              r.errors == a.errors + [CloseTimedOutMessage(a.handler.value.inFlight)]
    ensures a.activated && !timedOut ==> r.errors == a.errors && !IsProcessing(r)
    ensures r.handler.Some? <==> a.handler.Some?
    ensures a.handler.Some? ==> r.handler.value.forwarded == a.handler.value.forwarded
  {
    if !a.activated then a
    else
      var h := a.handler.value;
      var closing := a.(acceptsLoggingEvents := false, cancelled := true);
      if timedOut then
        closing.(errors := a.errors + [CloseTimedOutMessage(h.inFlight)], activated := false)
      else
        closing.(handler := Some(h.(inFlight := 0)), activated := false)
  }

  /** A second `OnClose` changes nothing, however the race goes either time. */
  lemma CloseIdempotent<E>(a: Appender<E>, first: bool, second: bool)
    requires Invariant(a)
    ensures OnClose(OnClose(a, first), second) == OnClose(a, first)
  {
  }

  /** The engine's processors starting or terminating in the background:
      the running handler now has `inFlight` processors. Without a handler there is nothing to change. */
  function Progress<E>(a: Appender<E>, inFlight: nat): (r: Appender<E>)
    ensures a.handler.None? ==> r == a
    ensures a.handler.Some? ==> r.handler == Some(a.handler.value.(inFlight := inFlight))
    ensures a.handler.Some? ==> (IsProcessing(r) <==> inFlight > 0)
    ensures r.activated == a.activated && r.acceptsLoggingEvents == a.acceptsLoggingEvents
    ensures r.config == a.config && r.errors == a.errors && r.cancelled == a.cancelled
  {
    match a.handler
    case None => a
    case Some(h) => a.(handler := Some(h.(inFlight := inFlight)))
  }

  /** The calls on the appender's own overrides, and the engine's progress. */
  datatype Call<E> =
    | ActivateOptionsCall
    | AppendCall(events: seq<E>)
    | AppendOneCall(event: E)
    | CloseCall(timedOut: bool)
    | ProgressCall(inFlight: nat)

  function Step<E>(a: Appender<E>, call: Call<E>): (r: Appender<E>)
    requires Invariant(a)
    ensures Invariant(r)
  {
    match call
    case ActivateOptionsCall => ActivateOptions(a)
    case AppendCall(events) => Append(a, events)
    case AppendOneCall(event) => AppendOne(a, event)
    case CloseCall(timedOut) => OnClose(a, timedOut)
    case ProgressCall(inFlight) => Progress(a, inFlight)
  }

  /** Runs the calls in order; the invariant holds after any sequence of calls,
      and a cancelled token stays cancelled. */
  function Run<E>(a: Appender<E>, calls: seq<Call<E>>): (r: Appender<E>)
    requires Invariant(a)
    ensures Invariant(r)
    ensures r.config == a.config
    ensures a.cancelled ==> r.cancelled
    ensures |r.errors| >= |a.errors| && r.errors[..|a.errors|] == a.errors
    decreases |calls|
  {
    if calls == [] then a
    else
      var next := Step(a, calls[0]);
      assert next.errors[..|a.errors|] == a.errors;
      var r := Run(next, calls[1..]);
      assert r.errors[..|a.errors|] == r.errors[..|next.errors|][..|a.errors|];
      r
  }

  /** The configuration never changes and activation needs it to validate,
      so an appender that only ever activates through its own calls is
      activated only with well-formed bounds: every close it performs waits
      on a positive timeout. */
  lemma {:induction false} ActivatedOnlyWellFormed<E>(a: Appender<E>, calls: seq<Call<E>>)
    requires Invariant(a)
    requires a.activated ==> WellFormed(a.config)
    ensures Run(a, calls).activated ==> WellFormed(a.config) && a.config.closeTimeoutMillis > 0
    decreases |calls|
  {
    if calls != [] {
      var next := Step(a, calls[0]);
      ActivatedOnlyWellFormed(next, calls[1..]);
    }
  }

  predicate IsActivation<E>(call: Call<E>) {
    call.ActivateOptionsCall?
  }

  /** Once closed, an appender refuses every event until it is activated again:
      each append reports an error, and the handler forwards nothing more,
      whatever its processors do meanwhile. */
  lemma {:induction false} ClosedStaysClosed<E>(a: Appender<E>, calls: seq<Call<E>>)
    requires Invariant(a) && !a.activated
    requires forall i | 0 <= i < |calls| :: !IsActivation(calls[i])
    ensures var r := Run(a, calls);
      && !r.activated && !r.acceptsLoggingEvents
      && (r.handler.Some? <==> a.handler.Some?)
      && (a.handler.Some? ==> r.handler.value.forwarded == a.handler.value.forwarded)
    decreases |calls|
  {
    if calls != [] {
      var next := Step(a, calls[0]);
      assert (next.handler.Some? <==> a.handler.Some?) && !next.activated;
      assert a.handler.Some? ==> next.handler.value.forwarded == a.handler.value.forwarded;
      ClosedStaysClosed(next, calls[1..]);
    }
  }

  /** A close that times out while processors are running names how many. */
  lemma TimedOutCloseNamesProcessors<E>(c: Config, n: nat)
    requires WellFormed(c)
    ensures var r := Run(Create<E>(c), [ActivateOptionsCall, ProgressCall(n), CloseCall(true)]);
      && r.errors == [CloseTimedOutMessage(n)]
      && !r.activated && r.cancelled
  {
    var calls: seq<Call<E>> := [ActivateOptionsCall, ProgressCall(n), CloseCall(true)];
    var a0 := Create<E>(c);
    var a1 := Step(a0, ActivateOptionsCall);
    var a2 := Step(a1, ProgressCall(n));
    var a3 := Step(a2, CloseCall(true));
    assert a1.activated && a1.handler == Some(Handler([], 0)) && a1.errors == [];
    assert a2.activated && a2.handler == Some(Handler([], n)) && a2.errors == [];
    assert a3.errors == [CloseTimedOutMessage(n)] && !a3.activated && a3.cancelled;
    assert calls[1..] == [ProgressCall(n), CloseCall(true)];
    assert calls[1..][1..] == [CloseCall(true)];
    assert calls[1..][1..][1..] == [];
    assert Run(a2, calls[1..][1..]) == Run(a3, []);
    assert Run(a1, calls[1..]) == Run(a2, calls[1..][1..]);
  }

  /** Activating again after a close starts the new handler on the token the
      close cancelled: the appender accepts events again, but its token is
      never reset. */
  lemma ReactivatedOnCancelledToken<E>(a: Appender<E>, timedOut: bool)
    requires Invariant(a) && a.activated && WellFormed(a.config)
    ensures var r := Run(a, [CloseCall(timedOut), ActivateOptionsCall]);
      && r.activated && r.acceptsLoggingEvents && r.cancelled
      && r.handler == Some(Handler([], 0))
  {
    var calls: seq<Call<E>> := [CloseCall(timedOut), ActivateOptionsCall];
    var a1 := Step(a, CloseCall(timedOut));
    var a2 := Step(a1, ActivateOptionsCall);
    assert a1.cancelled && a1.config == a.config;
    assert a2.activated && a2.cancelled && a2.handler == Some(Handler([], 0));
    assert calls[1..] == [ActivateOptionsCall];
    assert calls[1..][1..] == [];
    assert Run(a1, calls[1..]) == Run(a2, []);
  }

  /** An appender that was created and never activated has no handler, and
      reports exactly one error for each append it is asked to make. */
  lemma {:induction false} NeverActivatedRefusesAll<E>(a: Appender<E>, calls: seq<Call<E>>)
    requires Invariant(a) && !a.activated && a.handler.None?
    requires forall i | 0 <= i < |calls| :: calls[i].AppendCall? || calls[i].AppendOneCall?
    ensures Run(a, calls).handler.None?
    ensures Run(a, calls).errors == a.errors + seq(|calls|, _ => CannotProcess)
    decreases |calls|
  {
    if calls != [] {
      var next := Step(a, calls[0]);
      assert next.errors == a.errors + [CannotProcess];
      NeverActivatedRefusesAll(next, calls[1..]);
      assert a.errors + seq(|calls|, _ => CannotProcess)
          == next.errors + seq(|calls| - 1, _ => CannotProcess);
    }
  }
}

=== FILE: elastic_appender.dfy ===
/** The Elasticsearch flavour of the asynchronous appender: reading its
    settings from a connection string, validating them, composing the bulk
    endpoint address, and framing a batch of events as a bulk request body.

    The connection-string parser, the base URI built by the HTTP endpoint
    appender, URI escaping, the current date and the JSON serializer are all
    parameters here. */
module ElasticSearchAppender {
  import opened Options
  import Text
  import Numbers
  import TokenMap
  import UriParts
  import AA = AsyncAppender

  /** The connection properties the appender inherits from the HTTP endpoint
      appender and fills in from the connection string. */
  datatype HttpSettings = HttpSettings(
    scheme: string,
    userName: string,
    password: string,
    host: string,
    port: string,
    path: string,
    query: string)

  datatype EsAppender<E> = EsAppender(
    base: AA.Appender<E>,
    connectionString: string,
    http: HttpSettings,
    index: string,
    isRollingIndex: bool,
    routing: string)

  const InvalidConnectionString := "Invalid connection string."
  const MissingIndex := "Missing index."
  const DefaultScheme := "http"

  /** A fresh appender: no flags, no handler, every string property unset. */
  function Create<E>(config: AA.Config, connectionString: string): (es: EsAppender<E>)
    ensures AA.Invariant(es.base) && !es.base.activated && !AA.IsProcessing(es.base)
    ensures es.connectionString == connectionString
  {
    EsAppender(AA.Create(config), connectionString, HttpSettings("", "", "", "", "", "", ""), "", false, "")
  }

  /** The assignments `Configure` makes from a parsed token map. The user name
      is read from `UserName` before `User`, the password from `Password`
      before `Pwd`, the host from `Host` before `Server`; the index rolls only
      when `Rolling` reads as the boolean true; a blank scheme becomes `http`. */
  function ApplyTokens<E>(es: EsAppender<E>, tokens: seq<TokenMap.Entry>): (r: EsAppender<E>)
    ensures !Text.IsBlank(r.http.scheme)
    ensures !Text.IsBlank(TokenMap.TryGet(tokens, ["Scheme"])) ==> r.http.scheme == TokenMap.TryGet(tokens, ["Scheme"])
    ensures Text.IsBlank(TokenMap.TryGet(tokens, ["Scheme"])) ==> r.http.scheme == DefaultScheme
    ensures r.http.port == TokenMap.TryGet(tokens, ["Port"])
    ensures r.http.path == TokenMap.TryGet(tokens, ["Path"])
    ensures r.http.query == TokenMap.TryGet(tokens, ["Query"])
    ensures r.index == TokenMap.TryGet(tokens, ["Index"])
    ensures r.routing == TokenMap.TryGet(tokens, ["Routing"])
    ensures r.isRollingIndex <==> Numbers.ParseBool(TokenMap.TryGet(tokens, ["Rolling"])) == Some(true)
    ensures r.base == es.base && r.connectionString == es.connectionString
  {
    var scheme := TokenMap.TryGet(tokens, ["Scheme"]);
    var rolling := Numbers.ParseBool(TokenMap.TryGet(tokens, ["Rolling"]));
    assert !Text.IsBlank(DefaultScheme) by {
      assert !Text.IsWhiteSpace(DefaultScheme[0]);
    }
    es.(
      http := HttpSettings(
        if Text.IsBlank(scheme) then DefaultScheme else scheme,
        TokenMap.TryGet(tokens, ["UserName", "User"]),
        TokenMap.TryGet(tokens, ["Password", "Pwd"]),
        TokenMap.TryGet(tokens, ["Host", "Server"]),
        TokenMap.TryGet(tokens, ["Port"]),
        TokenMap.TryGet(tokens, ["Path"]),
        TokenMap.TryGet(tokens, ["Query"])),
      isRollingIndex := if rolling.Some? then rolling.value else false,
      index := TokenMap.TryGet(tokens, ["Index"]),
      routing := TokenMap.TryGet(tokens, ["Routing"]))
  }

  /** The coalescing order of the settings, and their defaults when missing. */
  lemma ApplyTokensCoalesces<E>(es: EsAppender<E>, tokens: seq<TokenMap.Entry>)
    ensures var r := ApplyTokens(es, tokens);
      && TokenMap.Coalesced(tokens, "UserName", "User", r.http.userName)
      && TokenMap.Coalesced(tokens, "Password", "Pwd", r.http.password)
      && TokenMap.Coalesced(tokens, "Host", "Server", r.http.host)
      && (!TokenMap.HasKey(tokens, "Scheme") ==> r.http.scheme == DefaultScheme)
      && (!TokenMap.HasKey(tokens, "Rolling") ==> !r.isRollingIndex)
      && (!TokenMap.HasKey(tokens, "Index") ==> r.index == "")
  {
    TokenMap.TryGetTwo(tokens, "UserName", "User");
    TokenMap.TryGetTwo(tokens, "Password", "Pwd");
    TokenMap.TryGetTwo(tokens, "Host", "Server");
    TokenMap.TryGetOne(tokens, "Scheme");
    TokenMap.TryGetOne(tokens, "Rolling");
    TokenMap.TryGetOne(tokens, "Index");
  }

  /** `Configure`. A blank connection string leaves the appender as it is. A
      string the parser rejects reports one error and changes no property.
      Otherwise the properties are read from the tokens, so that the scheme
      is never blank afterwards. */
  function Configure<E>(es: EsAppender<E>, parser: TokenMap.ConnectionStringParser): (r: EsAppender<E>)
    ensures Text.IsBlank(es.connectionString) ==> r == es
    ensures !Text.IsBlank(es.connectionString) && parser(es.connectionString).None? ==>
              r == es.(base := es.base.(errors := es.base.errors + [InvalidConnectionString]))
    ensures !Text.IsBlank(es.connectionString) && parser(es.connectionString).Some? ==>
              !Text.IsBlank(r.http.scheme) && r.base == es.base
    ensures r.base.config == es.base.config && r.base.activated == es.base.activated
    ensures AA.Invariant(es.base) ==> AA.Invariant(r.base)
  {
    if Text.IsBlank(es.connectionString) then es
    else
      match TokenMap.ParseConnectionString(es.connectionString, parser)
      case None => es.(base := es.base.(errors := es.base.errors + [InvalidConnectionString]))
      case Some(tokens) => ApplyTokens(es, tokens)
  }

  /** `ValidateSelf`. `baseCheck` is the outcome of the HTTP endpoint
      appender's own `ValidateSelf` on this appender, whose code is not part
      of this model: when it fails, so does this validation, with the base's
      errors only; when it passes, the index must be non-blank, and a blank
      one adds exactly the error "Missing index.". */
  function ValidateSelf<E>(es: EsAppender<E>, baseCheck: AA.Validation): (v: AA.Validation)
    ensures v.ok <==> baseCheck.ok && !Text.IsBlank(es.index)
    ensures !baseCheck.ok ==> v == baseCheck
    ensures baseCheck.ok && Text.IsBlank(es.index) ==> v.errors == baseCheck.errors + [MissingIndex]
    ensures baseCheck.ok && !Text.IsBlank(es.index) ==> v.errors == baseCheck.errors
  {
    if !baseCheck.ok then baseCheck
    else if Text.IsBlank(es.index) then AA.Validation(false, baseCheck.errors + [MissingIndex])
    else AA.Validation(true, baseCheck.errors)
  }

  /** When the base validation is the asynchronous appender's bound checks,
      validation passes exactly for well-formed bounds and a non-blank index,
      and a failure reports exactly one error: the first failing bound, or
      else the missing index. */
  lemma ValidateOverBoundChecks<E>(es: EsAppender<E>)
    ensures var v := ValidateSelf(es, AA.ValidateSelf(es.base.config));
      && (v.ok <==> AA.WellFormed(es.base.config) && !Text.IsBlank(es.index))
      && (v.ok <==> v.errors == [])
      && |v.errors| <= 1
      && (!AA.WellFormed(es.base.config) ==> v == AA.ValidateSelf(es.base.config))
      && (AA.WellFormed(es.base.config) && Text.IsBlank(es.index) ==> v.errors == [MissingIndex])
  {
  }

  /** `ActivateOptions` with the overridden configure and validate steps;
      `baseCheck` is the HTTP endpoint appender's validation of the
      configured appender. */
  function ActivateOptions<E>(es: EsAppender<E>, parser: TokenMap.ConnectionStringParser, baseCheck: AA.Validation): (r: EsAppender<E>)
    requires AA.Invariant(es.base)
    ensures AA.Invariant(r.base)
    ensures r.base.activated <==> es.base.activated || (baseCheck.ok && !Text.IsBlank(r.index))
    ensures r.base.errors == Configure(es, parser).base.errors + ValidateSelf(Configure(es, parser), baseCheck).errors
  {
    var configured := Configure(es, parser);
    configured.(base := AA.ActivateWith(configured.base, ValidateSelf(configured, baseCheck)))
  }

  /** An appender without a connection string and without an index is never
      activated, whatever the base validation says; when the base passes
      without an error, "Missing index." is the one error reported. */
  lemma NoIndexNoActivation<E>(config: AA.Config, parser: TokenMap.ConnectionStringParser, baseCheck: AA.Validation)
    ensures var r := ActivateOptions(Create<E>(config, ""), parser, baseCheck);
      && !r.base.activated && !r.base.acceptsLoggingEvents
      && (baseCheck.ok ==> r.base.errors == baseCheck.errors + [MissingIndex])
      && (!baseCheck.ok ==> r.base.errors == baseCheck.errors)
  {
  }

  /** A connection string that names an index activates a fresh appender
      whose base validation passes, whatever else the string holds; only the
      base's own reports, if any, are logged. */
  lemma IndexedConnectionStringActivates<E>(config: AA.Config, cs: string, parser: TokenMap.ConnectionStringParser, baseCheck: AA.Validation)
    requires baseCheck.ok && !Text.IsBlank(cs)
    requires parser(cs).Some?
    requires !Text.IsBlank(TokenMap.TryGet(TokenMap.FromEntries(parser(cs).value), ["Index"]))
    ensures var r := ActivateOptions(Create<E>(config, cs), parser, baseCheck);
      && r.base.activated && r.base.acceptsLoggingEvents
      && r.base.errors == baseCheck.errors
      && !Text.IsBlank(r.http.scheme)
  {
  }

  /** The base URI the HTTP endpoint appender builds, as its parts. */
  datatype BaseUri = BaseUri(
    scheme: string,
    userInfo: string,
    host: string,
    port: int,
    absolutePath: string,
    query: string)

  /** `TryExtractUserInfo`: nothing for blank user info; otherwise the user
      name is the text before the first `:`, and the password is the text
      between the first and the second `:`, present only if there is a `:`. */
  function TryExtractUserInfo(userInfo: string): (r: (Option<string>, Option<string>))
    ensures Text.IsBlank(userInfo) ==> r == (None, None)
    ensures !Text.IsBlank(userInfo) ==> r.0.Some?
    ensures r.0.Some? ==> ':' !in r.0.value && |r.0.value| <= |userInfo| && userInfo[..|r.0.value|] == r.0.value
    ensures r.0.Some? ==> |r.0.value| == |userInfo| || userInfo[|r.0.value|] == ':'
    ensures r.0.Some? ==> (r.1.Some? <==> ':' in userInfo)
    ensures r.1.Some? ==>
              var n := |r.0.value|;
              && ':' !in r.1.value
              && n + 1 + |r.1.value| <= |userInfo|
              && userInfo[n] == ':'
              && userInfo[n + 1..n + 1 + |r.1.value|] == r.1.value
              && (n + 1 + |r.1.value| == |userInfo| || userInfo[n + 1 + |r.1.value|] == ':')
  {
    if Text.IsBlank(userInfo) then (None, None)
    else
      var items := Text.Split(userInfo, ':');
      if |items| == 1 then
        (Some(items[0]), None)
      else
        var rest := Text.Join(items[1..], ':');
        assert userInfo == items[0] + [':'] + rest;
        assert userInfo[..|items[0]|] == items[0];
        assert ':' in userInfo by { assert userInfo[|items[0]|] == ':'; }
        assert userInfo[|items[0]| + 1..] == rest;
        if |items| == 2 then
          (Some(items[0]), Some(items[1]))
        else
          assert rest == items[1] + [':'] + Text.Join(items[2..], ':');
          (Some(items[0]), Some(items[1]))
  }

  /** The `user:password@` part of the endpoint, from the base URI's user info. */
  function Credentials(userInfo: string): (r: string)
    ensures Text.IsBlank(userInfo) ==> r == ""
    ensures r != "" ==> r[|r| - 1] == '@' && ':' in userInfo
  {
    var (userName, password) := TryExtractUserInfo(userInfo);
    UriParts.UserInfoPrefix(userName.GetOr(""), password.GetOr(""))
  }

  /** User info made of a non-blank user name and password without `:` is
      written back unchanged, followed by `@`. */
  lemma CredentialsRoundTrip(userName: string, password: string)
    requires ':' !in userName && ':' !in password
    requires !Text.IsBlank(userName) && !Text.IsBlank(password)
    ensures Credentials(userName + ":" + password) == userName + ":" + password + "@"
  {
    var ui := userName + ":" + password;
    assert Text.Join([userName, password], ':') == ui;
    Text.SplitJoin([userName, password], ':');
    assert !Text.IsBlank(ui) by {
      var i :| 0 <= i < |userName| && !Text.IsWhiteSpace(userName[i]);
      assert ui[i] == userName[i];
    }
  }

  /** User info without a `:` yields no credentials; `AuthorityCredentials`
      covers a blank half. */
  lemma NoPasswordNoCredentials(userInfo: string)
    requires ':' !in userInfo
    ensures Credentials(userInfo) == ""
  {
  }

  /** The path part: `/` stays `/`, any other absolute path gains a trailing `/`. */
  function PathSegment(absolutePath: string): (r: string)
    ensures |r| > 0 && r[|r| - 1] == '/'
    ensures absolutePath == "/" ==> r == "/"
    ensures absolutePath != "/" ==> |r| == |absolutePath| + 1 && r[..|absolutePath|] == absolutePath
  {
    if absolutePath == "/" then absolutePath else absolutePath + "/"
  }

  /** The base URI's query, escaped, when it is non-blank. */
  function QuerySuffix(query: string, escape: string -> string): (r: string)
    ensures Text.IsBlank(query) ==> r == ""
    ensures !Text.IsBlank(query) ==> r == escape(query)
  {
    if Text.IsBlank(query) then "" else escape(query)
  }

  /** `scheme://`, the credentials if any, then `host:port`. */
  function Authority(uri: BaseUri): (r: string)
    ensures Text.IsPrefix(uri.scheme + "://", r)
  {
    var prefix := uri.scheme + "://";
    var r := prefix + Credentials(uri.userInfo) + uri.host + ":" + Numbers.IntToString(uri.port);
    assert r[..|prefix|] == prefix;
    r
  }

  /** The credentials appear in the endpoint exactly when the base URI's user
      name and password are both non-blank. */
  lemma AuthorityCredentials(uri: BaseUri)
    ensures var (userName, password) := TryExtractUserInfo(uri.userInfo);
      var port := Numbers.IntToString(uri.port);
      && (!Text.IsBlank(userName.GetOr("")) && !Text.IsBlank(password.GetOr("")) ==>
            Authority(uri) == uri.scheme + "://" + (userName.value + ":" + password.value + "@") + uri.host + ":" + port)
      && (Text.IsBlank(userName.GetOr("")) || Text.IsBlank(password.GetOr("")) ==>
            Authority(uri) == uri.scheme + "://" + uri.host + ":" + port)
  {
    var (userName, password) := TryExtractUserInfo(uri.userInfo);
    var u, p := userName.GetOr(""), password.GetOr("");
    var c := UriParts.UserInfoPrefix(u, p);
    assert Credentials(uri.userInfo) == c;
    if Text.IsBlank(u) || Text.IsBlank(p) {
      assert c == "";
      assert uri.scheme + "://" + c == uri.scheme + "://";
    }
  }

  /** What follows the index: `/logEvent`, the escaped routing query, `/_bulk`,
      and the escaped base query if it is non-blank. Escaping the empty text
      gives the empty text, as `Uri.EscapeUriString` does, so a blank routing
      adds nothing between `/logEvent` and `/_bulk`. */
  function EndpointTail(routing: string, query: string, escape: string -> string): (r: string)
    requires escape("") == ""
    ensures Text.IsBlank(routing) ==> r == "/logEvent/_bulk" + QuerySuffix(query, escape)
    ensures !Text.IsBlank(routing) ==> r == "/logEvent" + escape("?routing=" + routing) + "/_bulk" + QuerySuffix(query, escape)
  {
    "/logEvent" + escape(UriParts.RoutingQuery(routing)) + "/_bulk" + QuerySuffix(query, escape)
  }

  /** `CreateEndpoint`: the authority, the path ending in `/`, the escaped index
      (with `-date` appended when rolling), then the tail. */
  function CreateEndpoint<E>(es: EsAppender<E>, uri: BaseUri, date: string, escape: string -> string): (r: string)
    requires escape("") == ""
    ensures Text.IsBlank(es.routing) && Text.IsBlank(uri.query) ==> Text.IsSuffix("/logEvent/_bulk", r)
    ensures var head := Authority(uri) + PathSegment(uri.absolutePath);
      var tail := EndpointTail(es.routing, uri.query, escape);
      && |head| + |tail| <= |r|
      && Text.IsPrefix(head, r)
      && Text.IsSuffix(tail, r)
      && r[|head|..|r| - |tail|] == escape(UriParts.IndexName(es.index, es.isRollingIndex, date))
  {
    var head := Authority(uri) + PathSegment(uri.absolutePath);
    var index := escape(UriParts.IndexName(es.index, es.isRollingIndex, date));
    var tail := EndpointTail(es.routing, uri.query, escape);
    var r := head + index + tail;
    assert r[..|head|] == head;
    assert r[|r| - |tail|..] == tail;
    assert r[|head|..|r| - |tail|] == index;
    r
  }

  /** The action line that opens a bulk request body. */
  const BulkHeader := "{\"index\" : {} }"

  /** The lines of the body for a batch: the header unless the batch holds
      exactly one event, then one JSON document per event, in order. */
  function BulkLines<E>(events: seq<E>, toJson: E -> string): (lines: seq<string>)
    ensures |lines| == |events| + (if |events| != 1 then 1 else 0)
    ensures |events| != 1 ==> lines[0] == BulkHeader
    ensures forall i | 0 <= i < |events| :: lines[|lines| - |events| + i] == toJson(events[i])
  {
    (if |events| != 1 then [BulkHeader] else []) + seq(|events|, i requires 0 <= i < |events| => toJson(events[i]))
  }

  /** Every line followed by the line terminator, as `StringBuilder.AppendLine` writes them. */
  function JoinLines(lines: seq<string>, newline: string): string {
    if lines == [] then "" else lines[0] + newline + JoinLines(lines[1..], newline)
  }

  lemma {:induction false} JoinLinesSnoc(lines: seq<string>, line: string, newline: string)
    ensures JoinLines(lines + [line], newline) == JoinLines(lines, newline) + line + newline
    decreases |lines|
  {
    if lines != [] {
      assert (lines + [line])[1..] == lines[1..] + [line];
      JoinLinesSnoc(lines[1..], line, newline);
    }
  }

  /** `SerializeAllToJson`, with `toJson` standing for the per-event serializer
      and `newline` for `Environment.NewLine`. */
  method SerializeAllToJson<E>(events: seq<E>, toJson: E -> string, newline: string) returns (body: string)
    ensures body == JoinLines(BulkLines(events, toJson), newline)
  {
    var header: seq<string> := if |events| != 1 then [BulkHeader] else [];
    body := if |events| != 1 then BulkHeader + newline else "";
    ghost var lines := header;
    var i := 0;
    while i < |events|
      invariant 0 <= i <= |events|
      invariant |lines| == |header| + i && lines[..|header|] == header
      invariant forall k | 0 <= k < i :: lines[|header| + k] == toJson(events[k])
      invariant body == JoinLines(lines, newline)
    {
      JoinLinesSnoc(lines, toJson(events[i]), newline);
      lines := lines + [toJson(events[i])];
      body := body + toJson(events[i]) + newline;
      i := i + 1;
    }
    var all := BulkLines(events, toJson);
    assert forall j | 0 <= j < |lines| :: lines[j] == all[j] by {
      forall j | 0 <= j < |lines| ensures lines[j] == all[j] {
        if j >= |header| {
          assert all[|all| - |events| + (j - |header|)] == toJson(events[j - |header|]);
        } else {
          assert lines[j] == lines[..|header|][j];
        }
      }
    }
    assert lines == all;
  }

  /** Lines joined with a one-character terminator are the parts of a split
      whose last part is empty. */
  lemma {:induction false} JoinLinesAsJoin(lines: seq<string>, nl: char)
    ensures JoinLines(lines, [nl]) == Text.Join(lines + [""], nl)
    decreases |lines|
  {
    if lines != [] {
      assert (lines + [""])[1..] == lines[1..] + [""];
      JoinLinesAsJoin(lines[1..], nl);
    }
  }

  /** Reading a body back line by line, with `nl` as the terminator and no JSON
      document containing `nl`, gives the header (unless the batch holds one
      event), then each event's document in order, then the empty text after
      the last terminator. */
  lemma BodyLines<E>(events: seq<E>, toJson: E -> string, nl: char)
    requires nl !in BulkHeader
    requires forall i | 0 <= i < |events| :: nl !in toJson(events[i])
    ensures Text.Split(JoinLines(BulkLines(events, toJson), [nl]), nl) == BulkLines(events, toJson) + [""]
    ensures |Text.Split(JoinLines(BulkLines(events, toJson), [nl]), nl)| == |events| + (if |events| != 1 then 2 else 1)
  {
    var lines := BulkLines(events, toJson);
    JoinLinesAsJoin(lines, nl);
    BulkLinesAvoid(events, toJson, nl);
    var parts := lines + [""];
    assert forall i | 0 <= i < |lines| :: parts[i] == lines[i];
    Text.SplitJoin(parts, nl);
  }

  /** No line of the body holds a character that neither the header nor any
      document holds. */
  lemma BulkLinesAvoid<E>(events: seq<E>, toJson: E -> string, nl: char)
    requires nl !in BulkHeader
    requires forall i | 0 <= i < |events| :: nl !in toJson(events[i])
    ensures forall i | 0 <= i < |BulkLines(events, toJson)| :: nl !in BulkLines(events, toJson)[i]
  {
    var lines := BulkLines(events, toJson);
    var skip := |lines| - |events|;
    forall i | 0 <= i < |lines| ensures nl !in lines[i] {
      if i >= skip {
        assert lines[skip + (i - skip)] == toJson(events[i - skip]);
      }
    }
  }
}

=== FILE: endpoint_agreement.dfy ===
/** The two endpoint builders side by side: the Elasticsearch appender's
    `CreateEndpoint` and the legacy settings' address. Given the same parts,
    they write the same address. */
module EndpointAgreement {
  import Text
  import Numbers
  import UriParts
  import ES = ElasticSearchAppender
  import AS = AppenderSettings

  /** With the same scheme, server, numeric port, index and routing, clean
      non-blank credentials, the root path, no base query, bulk posting, and
      no escaping, the two builders write the same address. */
  lemma SameAddress<E>(es: ES.EsAppender<E>, uri: ES.BaseUri, date: string, s: AS.Settings)
    requires uri.scheme == s.scheme && uri.host == s.server
    requires s.port == Numbers.IntToString(uri.port)
    requires ':' !in s.user && ':' !in s.password
    requires !Text.IsBlank(s.user) && !Text.IsBlank(s.password)
    requires uri.userInfo == s.user + ":" + s.password
    requires uri.absolutePath == "/" && Text.IsBlank(uri.query)
    requires s.index == UriParts.IndexName(es.index, es.isRollingIndex, date)
    requires s.routing == UriParts.RoutingQuery(es.routing)
    requires s.bulk == AS.BulkSuffix
    ensures ES.CreateEndpoint(es, uri, date, t => t) == AS.UriString(s)
  {
    ES.CredentialsRoundTrip(s.user, s.password);
    var head := s.scheme + "://" + UriParts.UserInfoPrefix(s.user, s.password) + s.server;
    var port := ":" + s.port;
    SettingsAddress(s);
    assert ES.Credentials(uri.userInfo) == UriParts.UserInfoPrefix(s.user, s.password);
    ElasticAuthority(uri, head, s.port);
    ElasticEndpoint(es, uri, date, s.index, s.routing);
    Regroup(head + port, "/", s.index, "/logEvent", s.routing, AS.BulkSuffix);
  }

  /** The settings' address as its parts, for a non-empty port. */
  lemma SettingsAddress(s: AS.Settings)
    requires s.port != ""
    ensures AS.UriString(s)
         == s.scheme + "://" + UriParts.UserInfoPrefix(s.user, s.password) + s.server + (":" + s.port)
            + ("/" + s.index + "/logEvent" + s.routing + s.bulk)
  {
  }

  /** The authority as the settings' head followed by `:port`. */
  lemma ElasticAuthority(uri: ES.BaseUri, head: string, port: string)
    requires head == uri.scheme + "://" + ES.Credentials(uri.userInfo) + uri.host
    requires port == Numbers.IntToString(uri.port)
    ensures ES.Authority(uri) == head + (":" + port)
  {
    assert ES.Authority(uri) == head + ":" + port;
  }

  /** The endpoint for the root path, no base query and no escaping. */
  lemma ElasticEndpoint<E>(es: ES.EsAppender<E>, uri: ES.BaseUri, date: string, index: string, routing: string)
    requires uri.absolutePath == "/" && Text.IsBlank(uri.query)
    requires index == UriParts.IndexName(es.index, es.isRollingIndex, date)
    requires routing == UriParts.RoutingQuery(es.routing)
    ensures ES.CreateEndpoint(es, uri, date, t => t)
         == ES.Authority(uri) + "/" + index + ("/logEvent" + routing + "/_bulk")
  {
    var escape: string -> string := t => t;
    assert ES.EndpointTail(es.routing, uri.query, escape) == "/logEvent" + routing + "/_bulk" + "";
    assert "/logEvent" + routing + "/_bulk" + "" == "/logEvent" + routing + "/_bulk";
  }

  /** Concatenation regrouped. */
  lemma Regroup(x: string, a: string, b: string, c: string, d: string, e: string)
    ensures x + a + b + (c + d + e) == x + (a + b + c + d + e)
  {
  }
}

=== FILE: numbers.dfy ===
/** The number and boolean conversions the appenders use: `bool.TryParse`,
    `int.TryParse` (NumberStyles.Integer, 32-bit), `bool.ToString` and the
    decimal rendering of an `int`, with the round trips that tie each parser
    to its printer. */
module Numbers {
  import opened Options
  import Text

  const Int32Min: int := -0x8000_0000
  const Int32Max: int := 0x7FFF_FFFF

  predicate IsInt32(n: int) {
    Int32Min <= n <= Int32Max
  }

  predicate IsDigit(c: char) {
    '0' <= c <= '9'
  }

  predicate AllDigits(s: string) {
    forall i | 0 <= i < |s| :: IsDigit(s[i])
  }

  function DigitValue(c: char): (d: nat)
    requires IsDigit(c)
    ensures d < 10
  {
    c as int - '0' as int
  }

  function DigitChar(d: nat): (c: char)
    requires d < 10
    ensures IsDigit(c) && DigitValue(c) == d
  {
    ('0' as int + d) as char
  }

  /** The value of a run of decimal digits, most significant first. */
  function DigitsValue(s: string): nat
    requires AllDigits(s)
  {
    if |s| == 0 then 0 else DigitsValue(s[..|s| - 1]) * 10 + DigitValue(s[|s| - 1])
  }

  /** Decimal rendering of a natural number, without leading zeros. */
  function NatToString(n: nat): (r: string)
    ensures |r| >= 1 && AllDigits(r)
    ensures DigitsValue(r) == n
    ensures r[0] == '0' ==> n == 0
  {
    if n < 10 then
      [DigitChar(n)]
    else
      var r := NatToString(n / 10) + [DigitChar(n % 10)];
      assert r[..|r| - 1] == NatToString(n / 10);
      r
  }

  /** `int.ToString()` under the invariant culture. */
  function IntToString(n: int): (r: string)
    ensures |r| >= 1
    ensures n < 0 <==> r[0] == '-'
  {
    if n < 0 then "-" + NatToString(-n) else NatToString(n)
  }

  /** The white space `NumberStyles.AllowLeadingWhite` and `AllowTrailingWhite`
      accept: U+0009..U+000D and U+0020 only. */
  predicate IsNumberWhite(c: char) {
    (0x09 <= c as int <= 0x0D) || c == ' '
  }

  /** `int.TryParse(s, out v)`: optional surrounding number white space, an
      optional leading `-` or `+`, then one or more decimal digits whose
      signed value fits in 32 bits; anything else fails. */
  function ParseInt32(s: string): (r: Option<int>)
    ensures r.Some? ==> IsInt32(r.value)
    ensures Text.IsBlank(s) ==> r.None?
  {
    var t := Text.Trim(s, IsNumberWhite);
    var signed := |t| > 0 && (t[0] == '-' || t[0] == '+');
    var digits := if signed then t[1..] else t;
    if |digits| == 0 || !AllDigits(digits) then None
    else
      var v: int := if signed && t[0] == '-' then -(DigitsValue(digits) as int) else DigitsValue(digits);
      if IsInt32(v) then Some(v) else None
  }

  /** Every 32-bit integer survives rendering followed by parsing. */
  lemma ParseIntToString(n: int)
    requires IsInt32(n)
    ensures ParseInt32(IntToString(n)) == Some(n)
  {
    var s := IntToString(n);
    assert !IsNumberWhite(s[0]) && !IsNumberWhite(s[|s| - 1]);
    Text.TrimUnchanged(s, IsNumberWhite);
    if n < 0 {
      assert s[1..] == NatToString(-n);
    }
  }

  /** The characters `bool.TryParse` trims: white space and NUL. */
  predicate IsBoolTrim(c: char) {
    Text.IsWhiteSpace(c) || c == '\0'
  }

  /** `bool.ToString()`. */
  function BoolToString(b: bool): string {
    if b then "True" else "False"
  }

  /** `bool.TryParse(s, out v)`: after trimming white space and NUL characters,
      the text must spell `True` or `False` in any letter case. */
  function ParseBool(s: string): (r: Option<bool>)
    ensures forall b :: r == Some(b) <==> Text.EqualsIgnoreCase(Text.Trim(s, IsBoolTrim), BoolToString(b))
    ensures Text.IsBlank(s) ==> r.None?
  {
    var t := Text.Trim(s, IsBoolTrim);
    if Text.EqualsIgnoreCase(t, "True") then Some(true)
    else if Text.EqualsIgnoreCase(t, "False") then Some(false)
    else None
  }

  /** Every boolean survives rendering followed by parsing, also when the
      text is padded or its letter case changed. */
  lemma ParseBoolToString(b: bool, pad: string, s: string)
    requires Text.EqualsIgnoreCase(s, BoolToString(b))
    requires forall i | 0 <= i < |pad| :: IsBoolTrim(pad[i])
    ensures ParseBool(pad + s + pad) == Some(b)
  {
    BoolNameEnds(b, s);
    TrimPadded(pad, s, IsBoolTrim);
  }

  /** A spelling of `True` or `False` neither starts nor ends with a trimmed
      character. */
  lemma BoolNameEnds(b: bool, s: string)
    requires Text.EqualsIgnoreCase(s, BoolToString(b))
    ensures |s| > 0 && !IsBoolTrim(s[0]) && !IsBoolTrim(s[|s| - 1])
  {
    var name := BoolToString(b);
    assert Text.Fold(s)[0] == Text.Fold(name)[0];
    assert Text.Fold(s)[|s| - 1] == Text.Fold(name)[|name| - 1];
  }

  /** Trimming removes padding on both sides and nothing else. */
  lemma TrimPadded(pad: string, s: string, strip: char -> bool)
    requires forall i | 0 <= i < |pad| :: strip(pad[i])
    requires |s| > 0 && !strip(s[0]) && !strip(s[|s| - 1])
    ensures Text.Trim(pad + s + pad, strip) == s
  {
    TrimStartPad(pad, s + pad, strip);
    assert pad + s + pad == pad + (s + pad);
    TrimEndPad(s, pad, strip);
  }

  lemma {:induction false} TrimStartPad(pad: string, rest: string, strip: char -> bool)
    requires forall i | 0 <= i < |pad| :: strip(pad[i])
    requires |rest| > 0 && !strip(rest[0])
    ensures Text.TrimStart(pad + rest, strip) == rest
    decreases |pad|
  {
    if |pad| > 0 {
      assert (pad + rest)[1..] == pad[1..] + rest;
      TrimStartPad(pad[1..], rest, strip);
    }
  }

  lemma {:induction false} TrimEndPad(rest: string, pad: string, strip: char -> bool)
    requires forall i | 0 <= i < |pad| :: strip(pad[i])
    requires |rest| > 0 && !strip(rest[|rest| - 1])
    ensures Text.TrimEnd(rest + pad, strip) == rest
    decreases |pad|
  {
    if |pad| > 0 {
      assert (rest + pad)[..|rest + pad| - 1] == rest + pad[..|pad| - 1];
      TrimEndPad(rest, pad[..|pad| - 1], strip);
    }
  }
}

=== FILE: options.dfy ===
/** An optional value, standing for a .NET reference that may be null or for
    an operation that may throw instead of producing a value. */
module Options {

  datatype Option<+T> = None | Some(value: T) {

    /** The value held, or `default` when there is none. */
    function GetOr(default: T): T {
      match this
      case Some(v) => v
      case None => default
    }
  }
}

=== FILE: text.dfy ===
/** The .NET string primitives the appenders lean on: `char.IsWhiteSpace`,
    `string.IsNullOrWhiteSpace`, ordinal case-insensitive comparison, trimming,
    and `string.Split` on a single separator character. */
module Text {

  /** `char.IsWhiteSpace`: the Unicode White_Space characters, i.e. U+0009..U+000D,
      U+0020, U+0085, U+00A0, U+1680, U+2000..U+200A, U+2028, U+2029, U+202F,
      U+205F and U+3000. */
  predicate IsWhiteSpace(c: char) {
    var n := c as int;
    || (0x09 <= n <= 0x0D) || n == 0x20 || n == 0x85 || n == 0xA0 || n == 0x1680
    || (0x2000 <= n <= 0x200A) || n == 0x2028 || n == 0x2029 || n == 0x202F
    || n == 0x205F || n == 0x3000
  }

  /** `string.IsNullOrWhiteSpace`; a null string is modelled as the empty one. */
  predicate IsBlank(s: string) {
    forall i | 0 <= i < |s| :: IsWhiteSpace(s[i])
  }

  /** Upper-cases the ASCII letters and leaves every other character alone. */
  function ToUpperAscii(c: char): (u: char)
    ensures 'a' <= c <= 'z' ==> u as int == c as int - 32
    ensures !('a' <= c <= 'z') ==> u == c
  {
    if 'a' <= c <= 'z' then (c as int - 32) as char else c
  }

  /** The canonical form under which two keys compare equal ignoring case. */
  function Fold(s: string): (f: string)
    ensures |f| == |s|
    ensures forall i | 0 <= i < |s| :: f[i] == ToUpperAscii(s[i])
  {
    seq(|s|, i requires 0 <= i < |s| => ToUpperAscii(s[i]))
  }

  /** `StringComparer.OrdinalIgnoreCase` equality. */
  predicate EqualsIgnoreCase(a: string, b: string) {
    Fold(a) == Fold(b)
  }

  /** Drops the leading characters that satisfy `strip`. */
  function TrimStart(s: string, strip: char -> bool): (r: string)
    ensures |r| <= |s| && r == s[|s| - |r|..]
    ensures forall i | 0 <= i < |s| - |r| :: strip(s[i])
    ensures |r| > 0 ==> !strip(r[0])
    decreases |s|
  {
    if |s| > 0 && strip(s[0]) then TrimStart(s[1..], strip) else s
  }

  /** Drops the trailing characters that satisfy `strip`. */
  function TrimEnd(s: string, strip: char -> bool): (r: string)
    ensures |r| <= |s| && r == s[..|r|]
    ensures forall i | |r| <= i < |s| :: strip(s[i])
    ensures |r| > 0 ==> !strip(r[|r| - 1])
    decreases |s|
  {
    if |s| > 0 && strip(s[|s| - 1]) then TrimEnd(s[..|s| - 1], strip) else s
  }

  /** `string.Trim` with a chosen set of characters to strip. */
  function Trim(s: string, strip: char -> bool): string {
    TrimEnd(TrimStart(s, strip), strip)
  }

  /** `IsNullOrWhiteSpace`: a string is blank exactly when trimming its white
      space leaves nothing. */
  lemma BlankIffTrimsEmpty(s: string)
    ensures IsBlank(s) <==> Trim(s, IsWhiteSpace) == ""
  {
    var t := TrimStart(s, IsWhiteSpace);
    var r := TrimEnd(t, IsWhiteSpace);
    assert |t| > 0 ==> t[0] == s[|s| - |t|];
    assert |t| > 0 ==> |r| > 0;
    if !IsBlank(s) {
      var i :| 0 <= i < |s| && !IsWhiteSpace(s[i]);
      assert i >= |s| - |t|;
      assert t[i - (|s| - |t|)] == s[i];
    }
  }

  /** A string with no strippable character at either end trims to itself. */
  lemma TrimUnchanged(s: string, strip: char -> bool)
    requires |s| > 0 ==> !strip(s[0]) && !strip(s[|s| - 1])
    ensures Trim(s, strip) == s
  {
  }

  /** `p` is the beginning of `s`. */
  predicate IsPrefix(p: string, s: string) {
    |p| <= |s| && s[..|p|] == p
  }

  /** `p` is the end of `s`. */
  predicate IsSuffix(p: string, s: string) {
    |p| <= |s| && s[|s| - |p|..] == p
  }

  /** Position of the first occurrence of `c` in `s`. */
  function IndexOf(s: string, c: char): (i: nat)
    requires c in s
    ensures i < |s| && s[i] == c && c !in s[..i]
  {
    if s[0] == c then 0 else 1 + IndexOf(s[1..], c)
  }

  /** The parts written one after the other with `sep` between neighbours. */
  function Join(parts: seq<string>, sep: char): string {
    if |parts| == 0 then ""
    else if |parts| == 1 then parts[0]
    else parts[0] + [sep] + Join(parts[1..], sep)
  }

  /** `s.Split(sep)`: the maximal runs between separators, so that there is always
      at least one part, no part holds the separator, and joining the parts
      back with the separator gives `s` again. */
  function Split(s: string, sep: char): (parts: seq<string>)
    ensures |parts| >= 1
    ensures forall i | 0 <= i < |parts| :: sep !in parts[i]
    ensures Join(parts, sep) == s
    decreases |s|
  {
    if sep in s then
      var i := IndexOf(s, sep);
      var rest := Split(s[i + 1..], sep);
      assert s == s[..i] + [sep] + s[i + 1..];
      assert ([s[..i]] + rest)[1..] == rest;
      [s[..i]] + rest
    else
      [s]
  }

  /** The first separator of `p + [c] + rest` is the one right after `p`. */
  lemma {:induction false} IndexOfAfter(p: string, c: char, rest: string)
    requires c !in p
    ensures IndexOf(p + [c] + rest, c) == |p|
    decreases |p|
  {
    if |p| > 0 {
      assert (p + [c] + rest)[1..] == p[1..] + [c] + rest;
      IndexOfAfter(p[1..], c, rest);
    }
  }

  /** Splitting undoes joining when no part holds the separator. */
  lemma {:induction false} SplitJoin(parts: seq<string>, sep: char)
    requires |parts| >= 1
    requires forall i | 0 <= i < |parts| :: sep !in parts[i]
    ensures Split(Join(parts, sep), sep) == parts
    decreases |parts|
  {
    if |parts| > 1 {
      var rest := Join(parts[1..], sep);
      var s := parts[0] + [sep] + rest;
      assert Join(parts, sep) == s;
      IndexOfAfter(parts[0], sep, rest);
      assert s[..|parts[0]|] == parts[0];
      assert s[|parts[0]| + 1..] == rest;
      SplitJoin(parts[1..], sep);
      assert parts == [parts[0]] + parts[1..];
    }
  }
}

=== FILE: token_map.dfy ===
/** A `Dictionary<string, string>` built with `StringComparer.OrdinalIgnoreCase`,
    kept as its entries in insertion order, together with the coalescing
    lookup `TryGet(keys...)` both appenders use to read settings from it. */
module TokenMap {
  import opened Options
  import Text

  datatype Entry = Entry(key: string, value: string)

  /** Keys are compared by `OrdinalIgnoreCase`. */
  predicate SameKey(a: string, b: string) {
    Text.EqualsIgnoreCase(a, b)
  }

  /** The dictionary invariant: no two entries have keys equal ignoring case. */
  predicate Distinct(d: seq<Entry>) {
    forall i, j | 0 <= i < j < |d| :: !SameKey(d[i].key, d[j].key)
  }

  predicate HasKey(d: seq<Entry>, key: string) {
    exists i | 0 <= i < |d| :: SameKey(d[i].key, key)
  }

  /** `TryGetValue`: the value stored under a key equal to `key` ignoring case. */
  function Find(d: seq<Entry>, key: string): (r: Option<string>)
    ensures r.None? <==> !HasKey(d, key)
    ensures r.Some? ==> exists i | 0 <= i < |d| :: SameKey(d[i].key, key) && d[i].value == r.value
    ensures Distinct(d) ==> forall i | 0 <= i < |d| && SameKey(d[i].key, key) :: r == Some(d[i].value)
  {
    if d == [] then None
    else if SameKey(d[0].key, key) then Some(d[0].value)
    else
      var r := Find(d[1..], key);
      assert forall i | 1 <= i < |d| :: d[i] == d[1..][i - 1];
      r
  }

  /** Lookup depends on the key only up to letter case. */
  lemma {:induction false} FindIgnoresCase(d: seq<Entry>, k: string, k': string)
    requires SameKey(k, k')
    ensures Find(d, k) == Find(d, k')
    decreases |d|
  {
    if d != [] {
      FindIgnoresCase(d[1..], k, k');
    }
  }

  /** Lookup in a list with a known first entry. */
  lemma FindCons(e: Entry, rest: seq<Entry>, k: string)
    ensures Find([e] + rest, k) == if SameKey(e.key, k) then Some(e.value) else Find(rest, k)
  {
    assert ([e] + rest)[1..] == rest;
  }

  /** The dictionary invariant for a list with a known first entry. */
  lemma DistinctCons(e: Entry, rest: seq<Entry>)
    ensures Distinct([e] + rest) <==> Distinct(rest) && !HasKey(rest, e.key)
  {
    var t := [e] + rest;
    assert forall i | 0 <= i < |rest| :: t[i + 1] == rest[i];
    if Distinct(t) {
      forall i, j | 0 <= i < j < |rest| ensures !SameKey(rest[i].key, rest[j].key) {
        assert t[i + 1] == rest[i] && t[j + 1] == rest[j];
      }
      forall i | 0 <= i < |rest| ensures !SameKey(rest[i].key, e.key) {
        assert t[0] == e && t[i + 1] == rest[i];
      }
    }
    if Distinct(rest) && !HasKey(rest, e.key) {
      forall i, j | 0 <= i < j < |t| ensures !SameKey(t[i].key, t[j].key) {
        if i > 0 {
          assert t[i] == rest[i - 1] && t[j] == rest[j - 1];
        } else {
          assert t[j] == rest[j - 1];
        }
      }
    }
  }

  /** The indexer assignment `d[key] = value`: overwrites the value of the entry
      whose key equals `key` ignoring case (keeping that entry's spelling of
      the key), or adds a new entry at the end. Every other key keeps its value. */
  function Set(d: seq<Entry>, key: string, value: string): (r: seq<Entry>)
    ensures forall k :: Find(r, k) == if SameKey(key, k) then Some(value) else Find(d, k)
  {
    if d == [] then
      var r := [Entry(key, value)];
      forall k ensures Find(r, k) == if SameKey(key, k) then Some(value) else Find(d, k) {
        FindCons(Entry(key, value), [], k);
      }
      r
    else if SameKey(d[0].key, key) then
      var r := [d[0].(value := value)] + d[1..];
      forall k ensures Find(r, k) == if SameKey(key, k) then Some(value) else Find(d, k) {
        FindCons(d[0].(value := value), d[1..], k);
        FindCons(d[0], d[1..], k);
        assert d == [d[0]] + d[1..];
      }
      r
    else
      var rest := Set(d[1..], key, value);
      var r := [d[0]] + rest;
      forall k ensures Find(r, k) == if SameKey(key, k) then Some(value) else Find(d, k) {
        FindCons(d[0], rest, k);
        FindCons(d[0], d[1..], k);
        assert d == [d[0]] + d[1..];
      }
      r
  }

  /** The indexer assignment keeps the dictionary invariant. */
  lemma {:induction false} SetKeepsDistinct(d: seq<Entry>, key: string, value: string)
    requires Distinct(d)
    ensures Distinct(Set(d, key, value))
    decreases |d|
  {
    if d != [] {
      assert d == [d[0]] + d[1..];
      DistinctCons(d[0], d[1..]);
      if SameKey(d[0].key, key) {
        var r := Set(d, key, value);
        assert forall i | 0 <= i < |r| :: r[i].key == d[i].key;
      } else {
        var rest := Set(d[1..], key, value);
        SetKeepsDistinct(d[1..], key, value);
        assert Find(rest, d[0].key) == Find(d[1..], d[0].key) by {
          assert !SameKey(key, d[0].key);
        }
        DistinctCons(d[0], rest);
      }
    }
  }

  /** `Add(key, value)`: throws (here: `None`) when a key equal ignoring case is
      already present, otherwise appends the entry. */
  function Add(d: seq<Entry>, key: string, value: string): (r: Option<seq<Entry>>)
    ensures r.None? <==> HasKey(d, key)
    ensures r.Some? ==> |r.value| == |d| + 1 && r.value[..|d|] == d && r.value[|d|] == Entry(key, value)
    ensures r.Some? && Distinct(d) ==> Distinct(r.value)
  {
    DistinctSnoc(d, Entry(key, value));
    assert (d + [Entry(key, value)])[..|d|] == d;
    if HasKey(d, key) then None else Some(d + [Entry(key, value)])
  }

  lemma DistinctSnoc(s: seq<Entry>, e: Entry)
    ensures Distinct(s + [e]) <==> Distinct(s) && !HasKey(s, e.key)
  {
    var t := s + [e];
    assert forall i | 0 <= i < |s| :: t[i] == s[i];
    assert t[|s|] == e;
  }

  /** The copy constructor `new Dictionary(src, OrdinalIgnoreCase)`: adds the
      entries of `src` one by one, so it fails exactly when two keys of `src`
      are equal ignoring case, and otherwise holds the entries of `src`. */
  function Copy(src: seq<Entry>): (r: Option<seq<Entry>>)
    ensures r == if Distinct(src) then Some(src) else None
  {
    if src == [] then Some([])
    else
      var init := src[..|src| - 1];
      var last := src[|src| - 1];
      assert src == init + [last];
      DistinctSnoc(init, last);
      match Copy(init)
      case None =>
        None
      case Some(d) =>
        Add(d, last.key, last.value)
  }

  /** The value of the last entry of `src` whose key equals `key` ignoring case. */
  function LastValue(src: seq<Entry>, key: string): Option<string> {
    if src == [] then None
    else if SameKey(src[|src| - 1].key, key) then Some(src[|src| - 1].value)
    else LastValue(src[..|src| - 1], key)
  }

  /** Stores every entry of `src` through the indexer, in order, into an empty
      case-insensitive dictionary: later entries overwrite earlier ones. */
  function FromEntries(src: seq<Entry>): (r: seq<Entry>)
    ensures Distinct(r)
    ensures forall k :: Find(r, k) == LastValue(src, k)
  {
    if src == [] then []
    else
      var last := src[|src| - 1];
      var init := FromEntries(src[..|src| - 1]);
      SetKeepsDistinct(init, last.key, last.value);
      Set(init, last.key, last.value)
  }

  /** What `DbConnectionStringBuilder` makes of a connection string: its
      key/value pairs, or `None` when it rejects the string. */
  type ConnectionStringParser = string -> Option<seq<Entry>>

  /** `Parse`, which both appenders define alike: an empty string gives an
      empty map; otherwise the parser's pairs are stored one by one in a
      case-insensitive dictionary, and a string the parser rejects throws
      (`None`). */
  function ParseConnectionString(connectionString: string, parser: ConnectionStringParser): (r: Option<seq<Entry>>)
    ensures connectionString == "" ==> r == Some([])
    ensures r.Some? ==> Distinct(r.value)
    ensures r.None? <==> connectionString != "" && parser(connectionString).None?
  {
    if connectionString == "" then Some([])
    else
      match parser(connectionString)
      case None => None
      case Some(entries) => Some(FromEntries(entries))
  }

  /** None of `keys` is present in `d`. */
  predicate NonePresent(d: seq<Entry>, keys: seq<string>) {
    forall i | 0 <= i < |keys| :: Find(d, keys[i]).None?
  }

  /** `keys[i]` is the first of `keys` present in `d`. */
  predicate FirstPresent(d: seq<Entry>, keys: seq<string>, i: int) {
    0 <= i < |keys| && Find(d, keys[i]).Some? && NonePresent(d, keys[..i])
  }

  /** The coalescing lookup `TryGet(keys...)`: the value under the first of
      `keys` that is present, or the empty string when none is. */
  function TryGet(d: seq<Entry>, keys: seq<string>): (r: string)
    ensures r == "" || exists i | 0 <= i < |keys| :: Find(d, keys[i]) == Some(r)
  {
    if keys == [] then ""
    else
      match Find(d, keys[0])
      case Some(v) => v
      case None =>
        var r := TryGet(d, keys[1..]);
        assert r != "" ==> exists i | 1 <= i < |keys| :: Find(d, keys[i]) == Some(r) by {
          if r != "" {
            var j :| 0 <= j < |keys[1..]| && Find(d, keys[1..][j]) == Some(r);
            assert keys[1..][j] == keys[j + 1];
          }
        }
        r
  }

  /** What the coalescing lookup finds: nothing when no key is present,
      otherwise the value under the first key that is. */
  lemma {:induction false} TryGetFirst(d: seq<Entry>, keys: seq<string>)
    ensures NonePresent(d, keys) ==> TryGet(d, keys) == ""
    ensures forall i | FirstPresent(d, keys, i) :: Find(d, keys[i]) == Some(TryGet(d, keys))
    decreases |keys|
  {
    if keys == [] {
    } else if Find(d, keys[0]).Some? {
      forall i | FirstPresent(d, keys, i) ensures i == 0 {
        NonePresentPrefix(d, keys, i);
      }
    } else {
      TryGetFirst(d, keys[1..]);
      if NonePresent(d, keys) {
        NonePresentTail(d, keys);
      }
      forall i | FirstPresent(d, keys, i) ensures Find(d, keys[i]) == Some(TryGet(d, keys)) {
        FirstPresentTail(d, keys, i);
      }
    }
  }

  lemma NonePresentPrefix(d: seq<Entry>, keys: seq<string>, i: int)
    requires 0 <= i <= |keys| && NonePresent(d, keys[..i])
    ensures forall j | 0 <= j < i :: Find(d, keys[j]).None?
  {
    forall j | 0 <= j < i ensures Find(d, keys[j]).None? {
      assert keys[..i][j] == keys[j];
    }
  }

  lemma NonePresentTail(d: seq<Entry>, keys: seq<string>)
    requires keys != [] && NonePresent(d, keys)
    ensures NonePresent(d, keys[1..])
  {
    var rest := keys[1..];
    forall j | 0 <= j < |rest| ensures Find(d, rest[j]).None? {
      assert rest[j] == keys[j + 1];
    }
  }

  lemma FirstPresentTail(d: seq<Entry>, keys: seq<string>, i: int)
    requires keys != [] && Find(d, keys[0]).None? && FirstPresent(d, keys, i)
    ensures i > 0 && FirstPresent(d, keys[1..], i - 1) && keys[1..][i - 1] == keys[i]
  {
    assert i > 0;
    var rest := keys[1..];
    var before := rest[..i - 1];
    forall j | 0 <= j < |before| ensures Find(d, before[j]).None? {
      assert before[j] == keys[..i][j + 1];
    }
  }

  /** `v` is what a lookup of `first`, then `second`, gives: the value under
      `first` if present, else the value under `second` if present, else empty. */
  predicate Coalesced(d: seq<Entry>, first: string, second: string, v: string) {
    && (HasKey(d, first) ==> Find(d, first) == Some(v))
    && (!HasKey(d, first) && HasKey(d, second) ==> Find(d, second) == Some(v))
    && (!HasKey(d, first) && !HasKey(d, second) ==> v == "")
  }

  /** A two-key lookup prefers the first key. */
  lemma TryGetTwo(d: seq<Entry>, first: string, second: string)
    ensures Coalesced(d, first, second, TryGet(d, [first, second]))
  {
    TryGetFirst(d, [first, second]);
    var keys := [first, second];
    assert keys[0] == first && keys[1] == second;
  }

  /** A one-key lookup is the value under that key, or empty. */
  lemma TryGetOne(d: seq<Entry>, key: string)
    ensures HasKey(d, key) ==> Find(d, key) == Some(TryGet(d, [key]))
    ensures !HasKey(d, key) ==> TryGet(d, [key]) == ""
  {
    TryGetFirst(d, [key]);
    assert [key][0] == key;
  }
}

=== FILE: uri_parts.dfy ===
/** Pieces of the bulk endpoint address that both the Elasticsearch appender
    and the legacy settings record compose the same way. */
module UriParts {
  import Text

  /** The `user:password@` prefix of the authority, written only when both
      halves are non-blank. */
  function UserInfoPrefix(user: string, password: string): (r: string)
    ensures r != "" <==> !Text.IsBlank(user) && !Text.IsBlank(password)
    ensures r != "" ==> r == user + ":" + password + "@"
  {
    if !Text.IsBlank(user) && !Text.IsBlank(password) then user + ":" + password + "@" else ""
  }

  /** The index an event is written to: `name-date` for a rolling index, where
      `date` is the current UTC date written `yyyy.MM.dd`, else `name` itself.
      A rolling index name is never blank, whatever `name` is. */
  function IndexName(name: string, rolling: bool, date: string): (r: string)
    ensures !rolling ==> r == name
    ensures rolling ==> |r| == |name| + 1 + |date|
    ensures rolling ==> r[..|name|] == name && r[|name|] == '-' && r[|name| + 1..] == date
    ensures rolling ==> !Text.IsBlank(r)
  {
    if rolling then
      var r := name + "-" + date;
      assert r[|name|] == '-';
      r
    else name
  }

  /** The routing query `?routing=R`, present exactly when `R` is non-blank. */
  function RoutingQuery(routing: string): (r: string)
    ensures r == "" <==> Text.IsBlank(routing)
    ensures r != "" ==> r == "?routing=" + routing
  {
    if Text.IsBlank(routing) then "" else "?routing=" + routing
  }
}
